=== FILE: README.md ===
# Haifa Port / Eilat Port in Dafny

The modelled program has two processes. Haifa Port sends N vessels through the Suez Canal to Eilat Port. There the vessels wait at a barrier, and the cargo of a batch of vessels is unloaded at the unloading quay, one crane per station. The vessels then sail back. The ports talk over two pipes, and each direction of the canal is guarded by a semaphore that lets one vessel through at a time.

The C code is mostly Win32 threads, semaphores and pipes. This project models the sequential cores inside it as pure functions over immutable data, plus a few methods for the loops:

- `Barrier`: the bounded FIFO `VesselQueue` that vessels enter at Eilat Port. The linked list is modelled as a sequence plus a limit.
- `Quay`: the table of unloading-quay stations, with these operations:
  - construction;
  - the emptiness test;
  - the reset;
  - the first-free claim a vessel makes;
  - the crane clearing its own station.
- `Coordinator`: the `UnloadingQuay` thread's loop and the vessel's arrival at the barrier. Semaphore counts are modelled as integers and blocking waits as preconditions.
- `Passage`: the passage arithmetic, made of three parts:
  - the trial-division primality test;
  - the inverted passage result;
  - the random crane-count divisor search, one round at a time and as the whole retry loop over a sequence of draws.
- `Rng`: the `rand() % k + min` range mappings for sleep time and cargo weight. Each `rand()` value is a parameter.
- `Wire`: the 60-byte frame that `sprintf("%d")` writes and `atoi` reads back (ISO C11 sections 7.21.6.1, 7.21.6.6 and 7.22.1.2). Bytes after the terminator are stale bytes from an earlier message.
- `Handshake`: the vessel-count validation, the messages each process reads and writes, and how each process ends. These are joined by an end-to-end protocol lemma.
- `Canal`: the two canal gates, modelled as counting semaphores with initial count 1 and maximum 1.
- `Ids`: the 1..N id assignment and the permutation facts used above.
- `Options`: the `Option` type.

**Passage polarity.** Eilat Port computes `passageResult = !isPrimeNumber(n)` (EilatPort.c:511) and prints "approved" for a nonzero result (EilatPort.c:516). Both processes exit on 0 (EilatPort.c:528-531, HaifaPort.c:324-338). So 1 means approved: a composite count is approved and a prime count is denied.

## Model

| member | source | states |
|---|---|---|
| Ids.AssignIds | HaifaPort.c:355-359 | Vessel ids are exactly 1..N with id i at index i-1, so the list is a permutation of 1..N. The crane ids at EilatPort.c:578-582 are built by the same loop. |
| Ids.PermutationCovers | HaifaPort.c:377-394 | Pigeonhole: N distinct ids drawn from 1..N name every vessel. |
| Ids.CoversIffPermutation | HaifaPort.c:377-394 | For N in-range tokens, naming every vessel is the same as being a permutation of 1..N. |
| Ids.PermutationOfPermutation | EilatPort.c:1182-1185 | Vessels returning in any order are still every vessel 1..N exactly once: a rearrangement of a permutation of 1..N is one. |
| Ids.Schedule | HaifaPort.c:505-522 | The order in which vessel threads get through a canal semaphore and write their ids, as the scheduler's pick among the threads still waiting at each step. Every thread passes exactly once, so the ids written rearrange the ids of the threads created. EilatPort.c:1164-1185 is the same pattern. |
| Ids.ScheduleReachesEvery | HaifaPort.c:505-522 | Every rearrangement of the waiting threads is the order of some sequence of picks, so no interleaving is lost by taking the picks as a parameter. |
| Ids.ScheduledIds | HaifaPort.c:353-359 | Whatever the scheduler picks, vessels 1..N created by the id loop write an order that lists 1..N, each exactly once. |
| Wire.Sprintf | HaifaPort.c:304-307 | Every frame written to a pipe is exactly BUFFER_SIZE = 60 bytes, whatever value it carries. |
| Wire.FormatFits | HaifaPort.c:14 | Every 32-bit `int` prints in at most 11 characters, which is less than BUFFER_SIZE. |
| Wire.FrameRoundTrip | EilatPort.c:501 | `atoi` of a frame that `sprintf("%d", v)` wrote returns v, whatever stale bytes follow the terminator. |
| Wire.TextRoundTrip | HaifaPort.c:90 | `atoi` reads back any int printed in decimal. |
| Wire.TraceRoundTrip | EilatPort.c:646 | A whole sequence of framed messages is decoded as exactly the values written, in order. |
| Barrier.Enqueue | EilatPort.c:250-287 | Refuses with FALSE and leaves the queue unchanged exactly when size >= limit. Otherwise it appends the id at the tail and size grows by one. 0 <= size <= limit is preserved. |
| Barrier.Dequeue | EilatPort.c:289-307 | Returns -1 and changes nothing on an empty queue. Otherwise it returns the head and removes exactly that element, and size drops by one. |
| Barrier.Construct | EilatPort.c:221-238 | A new queue is empty and has the given limit. |
| Barrier.EmptyIffDequeueFails | EilatPort.c:309-312 | `isEmpty` (size == 0) holds exactly when `dequeue` would answer -1, given that vessel ids are positive. |
| Barrier.EnqueueAll | EilatPort.c:250-287 | Successive enqueues accept exactly the ids that fit under the limit, in order. |
| Barrier.DequeueN | EilatPort.c:935-953 | k dequeues from a queue holding at least k ids return its first k ids, and the rest stays queued. |
| Barrier.FifoOrder | EilatPort.c:250-307 | Ids enqueued into a queue with room for them come out after the older ids, in enqueue order, and leave the queue empty. |
| Barrier.CapacityGuard | EilatPort.c:175 | A barrier built with limit N holds the first N vessels offered and never more than N. |
| Barrier.DestructQueue | EilatPort.c:240-248 | Draining until `isEmpty` removes every id, in FIFO order, and leaves the queue empty. |
| Quay.Construct | EilatPort.c:314-347 | One station per crane. Station i has craneId = cranesId[i], vesselId = -1, cargoWeight = -1 and isOccupied = FALSE. |
| Quay.PristineDeterminedByCranes | EilatPort.c:338-344 | Two freshly built quays with the same cranes are equal. |
| Quay.IsUnloadingQuayEmpty | EilatPort.c:355-367 | TRUE exactly when every station has vesselId = -1 and is not occupied. |
| Quay.RemoveVessels | EilatPort.c:369-376 | Afterwards the quay tests empty, and crane ids and cargo weights are untouched. |
| Quay.RemoveVesselsIdempotent | EilatPort.c:369-376 | Resetting twice is the same as resetting once. Resetting a vacant quay changes nothing. |
| Quay.Claim | EilatPort.c:1075-1092 | Claims the lowest-index unoccupied station, setting its vesselId and isOccupied = TRUE, and leaves every other station unchanged. Answers -1 with the quay unchanged exactly when every station is occupied. |
| Quay.StationVesselInUnloadingQuay | EilatPort.c:1066-1103 | The scan loop with break computes exactly `Claim`. |
| Quay.ClaimAll | EilatPort.c:1075-1092 | Successive claims answer one index per vessel and keep the number of stations. |
| Quay.SuccessiveClaims | EilatPort.c:1075-1092 | C successive claims on a vacant quay of size C answer the distinct indices 0..C-1, and station k holds the k-th vessel. |
| Quay.SetCargo | EilatPort.c:1110 | The vessel writes the cargo weight into its own station. No other field or station changes. |
| Quay.ClearCargo | EilatPort.c:870 | The crane sets its own station's cargo to -1. No other field or station changes. |
| Quay.CraneWake | EilatPort.c:845-880 | When all vessels are done the crane retires. Otherwise it clears only its own station's cargo and releases the vessel stationed there. No other station changes. |
| Quay.ServeBatch | EilatPort.c:1066-1135 | Each vessel of the batch claims a station, stores its cargo weight and wakes the crane of that station (`CraneWake`). The batch keeps the number of stations and which crane owns each. |
| Quay.ServeBatchOnPristine | EilatPort.c:1075-1092 | On a pristine quay a full batch always finds stations. Vessel k sits at station k and every cargo is unloaded. |
| Quay.CycleRestoresQuay | EilatPort.c:955-958 | After a batch has gone through and the coordinator has reset the quay, the quay is exactly as construction built it. |
| Rng.RandomSleepTime | EilatPort.c:392-395 | Any non-negative `rand()` maps into [5, 3000]. HaifaPort.c:157-160 is the same function. |
| Rng.SleepTimeCoversRange | EilatPort.c:392-395 | Every sleep time in [5, 3000] is produced by some `rand()` value. |
| Rng.RandomCargoWeight | EilatPort.c:397-400 | Any non-negative `rand()` maps into [5, 50]. |
| Rng.CargoWeightCoversRange | EilatPort.c:397-400 | Every weight in [5, 50] is produced by some `rand()` value. |
| Passage.IsPrimeNumber | EilatPort.c:534-550 | The loop answers FALSE exactly when n = 1 or some i in [2, n) divides n. |
| Passage.PrimeIffNotComposite | EilatPort.c:534-550 | For n >= 2, trial division answers TRUE exactly when n is not a product of two factors that are both >= 2. |
| Passage.WritePassageResult | EilatPort.c:504-532 | The result is 0 or 1. It is 1 exactly when n = 1 or n has a divisor in [2, n). Eilat Port goes on exactly when the result is nonzero. |
| Passage.ApprovedIffComposite | EilatPort.c:511 | For n >= 2 the passage is approved (1) exactly when n is composite. |
| Passage.DivisorCandidate | EilatPort.c:558 | `rand() % (n - 2) + 2` lies in [2, n - 1] for n > 2, and in [2, 3 - n] for n < 2, where C's remainder has a negative divisor. |
| Passage.TryDivisor | EilatPort.c:552-562 | An accepted crane count is that round's candidate. It satisfies 2 <= d <= n-1 and d divides n, and n = (n / d) * d with n / d >= 2. A rejected candidate does not divide n. |
| Passage.FirstDivisor | EilatPort.c:552-562 | Over a sequence of `rand()` values, the search accepts a candidate exactly when some round's candidate divides n. It returns the first such candidate, which is at least 2 and divides n. |
| Passage.NoDivisorOfOne | EilatPort.c:558-559 | For n = 1 every candidate is 2, which does not divide 1, so no sequence of `rand()` values ends the search. |
| Passage.CranesNeedThreeVessels | EilatPort.c:511-559 | An approved count is at least 1 and is not 2. If it also gets a crane count, it is above 2. |
| Passage.EveryDivisorReachable | EilatPort.c:558-559 | Every divisor of n in [2, n - 1] is accepted for some `rand()` value. |
| Passage.SomeRoundAcceptsIffNotPrime | EilatPort.c:556-559 | Some round of the retry loop can accept exactly when n is not prime. |
| Canal.Create | HaifaPort.c:171-172 | A fresh gate is open and holds the exclusive invariant: count 1, maximum 1, nobody in the canal. |
| Canal.Enter | HaifaPort.c:507 | Passing the wait closes an exclusive gate, with exactly that vessel in the canal. |
| Canal.Leave | HaifaPort.c:554 | ReleaseSemaphore fails exactly when the count would pass the maximum. On an exclusive gate it succeeds exactly when one vessel is inside, and reopens the gate. |
| Canal.Run | HaifaPort.c:505-559 | A run of waits and releases that goes through ends with the count equal to the initial count plus the releases minus the waits. The maximum is unchanged. At least the passed waits minus the releases are still in the canal. |
| Canal.RunKeepsExclusive | HaifaPort.c:171-172 | Under any order of waits and releases, a gate created with count 1 and maximum 1 keeps its count in {0, 1} and has at most one vessel in the canal. |
| Canal.OnePassage | EilatPort.c:992 | A vessel entering and then being let out returns the gate to its fresh state. |
| Canal.NoOvertaking | EilatPort.c:1169 | A second vessel cannot pass the wait while one is in the canal, and a release with nobody inside fails. |
| Handshake.ParseArguments | HaifaPort.c:83-97 | The count is accepted exactly when there is one argument and its atoi value lies in [2, 50]. The accepted value is that atoi value. |
| Handshake.ArgumentRoundTrip | HaifaPort.c:90-97 | A count written in decimal is accepted exactly when it is in [2, 50], and it is then that count. |
| Handshake.ReleaseReturningVessels | HaifaPort.c:374-396 | The loop releases vessel v's semaphore once for each token v it reads. |
| Handshake.ReleasedExactlyOnce | HaifaPort.c:377-394 | If the N tokens are a permutation of 1..N, every vessel is released exactly once. Otherwise some vessel is never released. |
| Handshake.HaifaSession | HaifaPort.c:113-127 | Haifa Port first writes N. It stops on a zero reply after writing only N. It completes exactly when the reply is nonzero, the N return tokens are a permutation of 1..N and the final confirmation is nonzero. It has then written N, the ids of the vessels it created (1..N, in the order the scheduler let them through the canal) and 1. That middle part is a permutation of 1..N. A zero confirmation ends it as NotConfirmed, after it has already written its own 1. |
| Handshake.HaifaVessels | HaifaPort.c:341-427 | After an approval, Haifa Port writes the ids of vessels 1..N in scheduled order. It completes exactly when the N tokens are a permutation of 1..N and the confirmation is nonzero. A zero confirmation is NotConfirmed, after its 1 has been written. |
| Handshake.EilatSession | EilatPort.c:155-219 | Eilat Port first answers `!isPrimeNumber(N)`. It stops after answering 0 exactly when N is prime, and so for every N <= 0. After an approval it stops without a crane count exactly when no draw divides N. It never writes more messages than it has read. It completes exactly when N > 2 is composite, a crane count was found, the ids read are a permutation of 1..N and Haifa Port's final message is nonzero. It has then written 1, the ids it read rearranged in the order the scheduler lets its vessels back through the canal, and 1, and that middle part is a permutation of 1..N. When everything else holds but the final message is 0, it exits as NotConfirmed having written 1 and the returning ids but no final 1. It writes the final 1 only when it completes. |
| Handshake.EilatVessels | EilatPort.c:620-684 | After the crane count, Eilat Port creates one vessel per id read. It completes exactly when the ids are a permutation of 1..N and the confirmation is nonzero. It then writes back exactly those ids in scheduled order, and 1. A zero confirmation is NotConfirmed, with the ids written back but no final 1. It never writes more than it has read. |
| Handshake.OneVesselNeverGetsCranes | EilatPort.c:552-562 | If Eilat Port were handed N = 1, it would send the approval 1 and then find no crane count for any sequence of `rand()` values. |
| Handshake.EilatAnswers | EilatPort.c:155-219 | Reading what Haifa Port writes for a valid count N, Eilat Port answers 0 and stops when N is prime. Otherwise it completes, writing 1, the ids Haifa Port sent in the order the scheduler lets them back, and 1. |
| Handshake.HaifaHears | HaifaPort.c:282-339 | Haifa Port completes after the approval 1, N distinct returning ids 1..N and a final 1. It has then written N, its vessels' ids in scheduled order and 1. |
| Handshake.Carry | EilatPort.c:1182-1185 | The pipe transport: values written one per 60-byte buffer, each over whatever that buffer held before, are read back as exactly those values, in order (via `Wire.TraceRoundTrip`). HaifaPort.c:304-317 uses the same transport. |
| Handshake.ReplySmall | EilatPort.c:1182-1185 | Every message of Eilat Port's completed or denied session fits an `int`, so `sprintf("%d")` can print it. |
| Handshake.SentSmall | HaifaPort.c:304-307 | Every message of Haifa Port's trace fits an `int`. |
| Handshake.Protocol | HaifaPort.c:282-427 | For 2 <= N <= 50, each process reads what the other writes through the 60-byte frames, whatever order the scheduler lets the vessels through either canal. If N is prime, both stop after the answer 0. If N is composite, both complete: Med. Sea ==> Red Sea carries [N] ++ ids ++ [1] and Med. Sea <== Red Sea carries [1] ++ ids ++ [1]. The returning ids are a rearrangement of the departing ones, and every vessel is released in Haifa Port exactly once. This assumes the crane-count draws reach an accepted one. |
| Coordinator.Init | EilatPort.c:175-176 | The barrier starts empty with limit N. The quay is pristine with the given cranes. There are no signals and no arrivals. |
| Coordinator.Arrive | EilatPort.c:999-1022 | Enqueue fails exactly when the barrier is full, and then nothing changes. Otherwise the vessel is at the tail of the barrier and is recorded as arrived. The semaphore release fails exactly when the count is already N, and then the count is unchanged. Otherwise the count grows by one. Nothing else in the port state changes. |
| Coordinator.AllArrived | EilatPort.c:191 | Sets the all-arrived flag and changes nothing else. |
| Coordinator.Cycle | EilatPort.c:922-958 | The iteration releases vessels exactly when the barrier holds at least C ids and the quay is vacant. It then takes the C oldest ids in order, keeps the limit and leaves the quay vacant with the same cranes. Only the barrier, the quay, the signal count and the served list change. Otherwise only the C signals are consumed. A -1 from dequeue ends the thread. A vessel finding no station leaves the coordinator stuck. |
| Coordinator.InitEstablishes | EilatPort.c:175-176 | The initial state satisfies the coordinator invariant, and the loop is entered. |
| Coordinator.ArrivePreserves | EilatPort.c:999-1022 | Arrivals keep the invariant. While the barrier has room they always succeed, and the semaphore never overflows. |
| Coordinator.AllArrivedPreserves | EilatPort.c:191 | Setting the flag keeps the invariant. |
| Coordinator.CyclePreserves | EilatPort.c:926-958 | In every reachable state the re-check succeeds. The iteration releases the C oldest vessels, in order, and keeps the invariant with the quay restored. |
| Coordinator.ExitMeansDrained | EilatPort.c:922 | When the loop ends in a reachable state, every vessel that entered the barrier has been released, in arrival order. |
| Coordinator.ArriveAllPreserves | EilatPort.c:999-1022 | Vessels arriving while there is room enter the barrier in order and keep the invariant. |
| Coordinator.Loop | EilatPort.c:922-960 | The loop exits only when the barrier is empty and the all-arrived flag is set. A blocked loop still has work. Iterations never change the vessel count, the flag or the arrivals. They only ever extend the list of served vessels. |
| Coordinator.EarlyExit | EilatPort.c:191 | The guard reads the flag `main` sets once it has read every id. If the flag is set while 2 of 4 vessels are still on their way to the barrier, the loop exits after one batch and vessels 3 and 4 are never served. |
| Coordinator.LoopDrains | EilatPort.c:922-960 | With all vessels arrived and k full batches in the barrier, k iterations release them all, in order, and the loop then exits. |
| Coordinator.ServesInArrivalOrder | EilatPort.c:916-963 | For N = C * k vessels arriving in any order, with the flag set only once all N are in the barrier, the coordinator releases every vessel batch by batch in exactly the arrival order. The loop then ends with the quay as built. |

## Left out

- Threads, `WaitForSingleObject`/`WaitForMultipleObjects`, mutexes and real semaphore scheduling are concurrency. Semaphores are counters, blocking waits are preconditions, and the order in which threads pass a point is a parameter (`departurePicks`, `returnPicks`, the arrival `order`).
- The following OS plumbing is not modelled:
  - `CreatePipe`, `CreateProcess`, handle inheritance and `CloseHandle`;
  - partial `ReadFile`/`WriteFile` transfers.

  Only whole frames and the message order are modelled, and a failed read is the end of the frame sequence.
- `safePrintWithTimeStamp`, `GetLocalTime` and all diagnostics only produce output.
- `srand`, `rand` internals and `Sleep`: every `rand()` value is an arbitrary non-negative parameter, and sleeping has no effect on state.
- Passage.TryDivisor: models one round of `getRandomDivisor`. Whether the retry loop terminates depends on the random sequence. `SomeRoundAcceptsIffNotPrime` states when a round can accept.
- `malloc` failure paths (for example EilatPort.c:262-267 and EilatPort.c:319-334) are allocation plumbing.
- Quay.Claim: on failure the C code returns -1 while still holding `stationMutex` (EilatPort.c:1087-1092). That is a locking artefact; the model returns -1 with the quay unchanged.
- Barrier pointer details, such as the stale `tail` left after the queue drains (EilatPort.c:301), are abstracted away by the sequence.
- Wire.Atoi: values that overflow `int` are undefined behaviour in C and are read as unbounded integers. Every value the ports exchange is in [0, 50].
- Handshake.ReleaseReturningVessels: counts releases and does not model a second ReleaseSemaphore on a vessel semaphore failing at maximum 1. Whether it fails depends on whether the vessel thread has already consumed the first release.
- Handshake.Protocol: assumes that no message is corrupted by the shared-buffer race. Each port has one global `buffer` (EilatPort.c:148, HaifaPort.c:78). `main` reads into it and parses it with `atoi` (EilatPort.c:639-646, HaifaPort.c:377-386). The vessel threads `sprintf` into it and send it (EilatPort.c:1182-1185, HaifaPort.c:522). A read landing between a vessel's `sprintf` and its `WriteFile` makes that vessel send another vessel's id. A `sprintf` landing between `main`'s read and its `atoi` makes `main` see the wrong id. The model covers only stale bytes after the terminator, not these interleavings.
- Handshake.Protocol: for a composite N it assumes that the supplied `rand()` draws reach an accepted crane count. `Passage.SomeRoundAcceptsIffNotPrime` shows that such a draw exists.
- Handshake.EilatSession: assumes that every vessel thread Eilat Port creates finishes its cycle and sails back, so all N ids are written back. `Coordinator.EarlyExit` shows a run where this fails: the unloading loop exits while vessels are still on their way to the barrier, those vessels wait in the barrier for ever, and Eilat Port blocks in `WaitForMultipleObjects` (EilatPort.c:194) without sending the final 1. `Handshake.Protocol` inherits this assumption.
- Coordinator.Arrive: treats each queue operation as atomic. In the C code a vessel thread's `enqueue` (EilatPort.c:999-1002, 250-287) and the `UnloadingQuay` thread's `dequeue` (EilatPort.c:935-953, 289-307) update `size`, `head` and `tail` with no lock. Interleaved updates can lose an id or corrupt the list, and the model does not cover that. Coordinator.Cycle makes the same assumption.
- Coordinator.ServesInArrivalOrder: holds only for runs in which the flag is set after all N vessels have entered the barrier. The loop guard `!(isEmpty(barrier) && haveAllVesselsArrived)` (EilatPort.c:922) reads a flag that `main` sets once it has read every id (EilatPort.c:191). That can happen before the last vessel threads have enqueued themselves, and the model reaches that case: `Coordinator.EarlyExit` is a run in which the loop exits with vessels still on their way. Whether a real schedule hits it depends on thread timing. `ExitMeansDrained` states what holds of the vessels that did enter.
- Coordinator.Cycle: releasing the batch's vessel semaphores and waiting on `unloadingQuaySemaphore` are not modelled as counters. The batch's passage through the quay runs sequentially, vessel by vessel (`Quay.ServeBatch`).
- Eilat Port never validates N. Haifa Port only ever sends a validated count. `OneVesselNeverGetsCranes` derives what N = 1 would do. For N <= 0 the loop of `isPrimeNumber` never runs, so it answers TRUE (EilatPort.c:534-549). Eilat Port then sends 0 and exits (EilatPort.c:528-531) before it allocates anything. `EilatSession` states this as a `PassageDenied` outcome.
- Vessel-thread creation in Eilat Port at index id - 1 (EilatPort.c:646-655) is modelled only by its checks. An id outside 1..N is `BadVesselId`: the C code writes past the arrays. A duplicate id leaves some slot of `vesselsHandler` (allocated at EilatPort.c:626) unset. `WaitForMultipleObjects` (EilatPort.c:194) is then given an uninitialised handle, which is undefined behaviour. The session ends there with `VesselSlotUnset`.
- `getRandomDivisor` runs until a draw is accepted. The model takes a finite sequence of draws. When none of them is accepted the Eilat session ends with `NoCraneCount`, which means the search is still going.

=== FILE: barrier.dfy ===
/** The barrier of Eilat Port: a bounded FIFO of vessel ids (`VesselQueue`).
    The linked list of the C code is abstracted to a sequence: `items[0]` is the
    node `head` points to (the oldest vessel), the last item is the node `tail`
    points to, and `|items|` is the `size` field. */
module Barrier {

  datatype VesselQueue = VesselQueue(items: seq<int>, limit: int)

  /** What `dequeue` answers on an empty queue. */
  const Sentinel: int := -1

  /** `constructQueue(limit)`: no vessels yet, capacity `limit`. */
  function Construct(limit: int): (r: VesselQueue)
    ensures IsEmpty(r) && r.limit == limit
    ensures limit >= 0 ==> Bounded(r)
  {
    VesselQueue([], limit)
  }

  function Size(q: VesselQueue): nat
  {
    |q.items|
  }

  /** `isEmpty`. */
  predicate IsEmpty(q: VesselQueue)
  {
    Size(q) == 0
  }

  /** The capacity guard the queue keeps: 0 <= size <= limit. */
  predicate Bounded(q: VesselQueue)
  {
    Size(q) <= q.limit
  }

  datatype Enqueued = Enqueued(ok: bool, queue: VesselQueue)

  /** `enqueue`: refuses (FALSE) when the queue is at its limit, otherwise
      appends the id at the tail. */
  function Enqueue(q: VesselQueue, id: int): (r: Enqueued)
    ensures r.queue.limit == q.limit
    ensures r.ok <==> Size(q) < q.limit
    ensures !r.ok ==> r.queue == q
    ensures r.ok ==> r.queue.items == q.items + [id] && Size(r.queue) == Size(q) + 1
    ensures Bounded(q) ==> Bounded(r.queue)
  {
    if Size(q) >= q.limit then Enqueued(false, q)
    else Enqueued(true, q.(items := q.items + [id]))
  }

  datatype Dequeued = Dequeued(id: int, queue: VesselQueue)

  /** `dequeue`: -1 on an empty queue, otherwise the id at the head, which is
      removed. */
  function Dequeue(q: VesselQueue): (r: Dequeued)
    ensures r.queue.limit == q.limit
    ensures IsEmpty(q) ==> r.id == Sentinel && r.queue == q
    ensures !IsEmpty(q) ==> r.id == q.items[0] && q.items == [r.id] + r.queue.items
    ensures !IsEmpty(q) ==> Size(r.queue) == Size(q) - 1
    ensures Bounded(q) ==> Bounded(r.queue)
  {
    if IsEmpty(q) then Dequeued(Sentinel, q)
    else Dequeued(q.items[0], q.(items := q.items[1..]))
  }

  /** Successive enqueues of `ids`, each one refused or accepted on its own. */
  function EnqueueAll(q: VesselQueue, ids: seq<int>): (r: VesselQueue)
    ensures r.limit == q.limit
    ensures Bounded(q) ==> Bounded(r)
    ensures Bounded(q) ==> r.items == q.items + ids[..Min(|ids|, q.limit - Size(q))]
    decreases |ids|
  {
    if |ids| == 0 then q else EnqueueAll(Enqueue(q, ids[0]).queue, ids[1..])
  }

  function Min(a: int, b: int): int
  {
    if a <= b then a else b
  }

  datatype Drained = Drained(ids: seq<int>, rest: VesselQueue)

  /** `k` successive dequeues, as the coordinator's release loop performs them. */
  function DequeueN(q: VesselQueue, k: nat): (r: Drained)
    ensures |r.ids| == k
    ensures r.rest.limit == q.limit
    ensures k <= Size(q) ==> r.ids == q.items[..k] && r.rest.items == q.items[k..]
    decreases k
  {
    if k == 0 then Drained([], q)
    else
      var d := Dequeue(q);
      var t := DequeueN(d.queue, k - 1);
      Drained([d.id] + t.ids, t.rest)
  }

  /** `isEmpty` tells the coordinator exactly when a dequeue would answer -1:
      vessel ids are positive, so the sentinel never comes out of a non-empty
      queue. */
  lemma EmptyIffDequeueFails(q: VesselQueue)
    requires forall k :: 0 <= k < |q.items| ==> q.items[k] >= 1
    ensures IsEmpty(q) <==> Dequeue(q).id == Sentinel
    ensures !IsEmpty(q) ==> Dequeue(q).id in q.items
  {
  }

  /** FIFO order: ids enqueued into a queue with room for all of them come out
      of it in the order they went in, after what was already there. */
  lemma FifoOrder(q: VesselQueue, ids: seq<int>)
    requires Bounded(q) && Size(q) + |ids| <= q.limit
    ensures DequeueN(EnqueueAll(q, ids), Size(q) + |ids|).ids == q.items + ids
    ensures IsEmpty(DequeueN(EnqueueAll(q, ids), Size(q) + |ids|).rest)
  {
    assert ids[..Min(|ids|, q.limit - Size(q))] == ids;
  }

  /** Capacity: a fresh queue of limit n accepts the first n vessels offered and
      refuses every later one. */
  lemma CapacityGuard(n: nat, ids: seq<int>)
    ensures EnqueueAll(Construct(n), ids).items == ids[..Min(|ids|, n)]
    ensures Size(EnqueueAll(Construct(n), ids)) <= n
  {
  }

  /** `destructQueue`: dequeue until `isEmpty`. The ids come out in FIFO order
      and nothing is left behind. */
  method DestructQueue(q: VesselQueue) returns (drained: seq<int>, last: VesselQueue)
    ensures IsEmpty(last)
    ensures drained == q.items
  {
    drained := [];
    last := q;
    while !IsEmpty(last)
      invariant drained + last.items == q.items
      decreases Size(last)
    {
      var d := Dequeue(last);
      drained := drained + [d.id];
      last := d.queue;
    }
  }
}

=== FILE: canal.dfy ===
/** The two canal gates, `medToRedCanalSemaphore` and `redToMedCanalSemaphore`.
    Haifa Port creates both as named Windows semaphores with initial count 1 and
    maximum count 1; Eilat Port opens the same objects. A vessel waits on the
    gate of its direction before it enters the canal, and the port at the other
    end releases the gate once the vessel has come out.

    A gate is a counter. The wait is a step that is only possible while the
    count is positive (a thread that finds it zero blocks); the release is
    ReleaseSemaphore, which fails and leaves the count unchanged when it would
    push the count past the maximum. `transit` records the vessels that have
    passed the wait and not yet been released, in order. */
module Canal {
  import opened Options

  datatype Gate = Gate(count: int, maximum: int, transit: seq<int>)

  /** The gate admits one vessel and nobody is in the canal, or the gate is
      closed and exactly one vessel is in the canal. */
  predicate Exclusive(g: Gate)
  {
    g.maximum == 1 && 0 <= g.count <= 1 && g.count + |g.transit| == 1
  }

  /** `CreateSemaphore(securityAttributes, 1, 1, name)`. */
  function Create(): (g: Gate)
    ensures Exclusive(g)
    ensures Open(g)
  {
    Gate(1, 1, [])
  }

  /** A vessel may pass the wait. */
  predicate Open(g: Gate)
  {
    g.count > 0
  }

  /** `WaitForSingleObject(gate, INFINITE)` returning for vessel `id`. */
  function Enter(g: Gate, id: int): (r: Gate)
    requires Open(g)
    ensures r.maximum == g.maximum && r.count == g.count - 1
    ensures Exclusive(g) ==> Exclusive(r) && r.transit == [id] && !Open(r)
  {
    Gate(g.count - 1, g.maximum, g.transit + [id])
  }

  /** `ReleaseSemaphore(gate, 1, NULL)`: fails when the count is already at its
      maximum; otherwise the oldest vessel in the canal has left it. */
  function Leave(g: Gate): (r: Option<Gate>)
    ensures r.None? <==> g.count + 1 > g.maximum
    ensures r.Some? ==> r.value.count == g.count + 1 && r.value.maximum == g.maximum
    ensures Exclusive(g) ==> (r.Some? <==> |g.transit| == 1)
    ensures Exclusive(g) && r.Some? ==> Exclusive(r.value) && r.value.transit == [] && Open(r.value)
  {
    if g.count + 1 > g.maximum then None
    else Some(Gate(g.count + 1, g.maximum, if |g.transit| == 0 then [] else g.transit[1..]))
  }

  datatype GateOp = Wait(id: int) | Release

  /** How many of `ops` are waits. */
  function Waits(ops: seq<GateOp>): nat
    decreases |ops|
  {
    if |ops| == 0 then 0 else (if ops[0].Wait? then 1 else 0) + Waits(ops[1..])
  }

  /** A sequence of gate operations in the order they happen. `None` when the
      sequence is impossible (a wait on a closed gate never returns) or when a
      release fails. The run is not followed past a failed release: Eilat
      Port's vessel thread then exits the process (EilatPort.c:992-997), while
      Haifa Port's vessel thread returns 1 and its process carries on
      (HaifaPort.c:554-559). */
  function Run(g: Gate, ops: seq<GateOp>): (r: Option<Gate>)
    ensures r.Some? ==> r.value.maximum == g.maximum
    ensures r.Some? ==> r.value.count == g.count + (|ops| - Waits(ops)) - Waits(ops)
    ensures r.Some? ==> |r.value.transit| >= |g.transit| + Waits(ops) - (|ops| - Waits(ops))
    decreases |ops|
  {
    if |ops| == 0 then Some(g)
    else match ops[0]
      case Wait(id) => if Open(g) then Run(Enter(g, id), ops[1..]) else None
      case Release =>
        var next := Leave(g);
        if next.None? then None else Run(next.value, ops[1..])
  }

  /** Mutual exclusion: starting from a fresh gate, whatever the interleaving
      of waits and releases, the counter stays in {0, 1} and at most one vessel
      is ever in that direction of the canal. */
  lemma {:induction false} RunKeepsExclusive(g: Gate, ops: seq<GateOp>)
    requires Exclusive(g)
    ensures Run(g, ops).Some? ==> Exclusive(Run(g, ops).value)
    ensures Run(g, ops).Some? ==> 0 <= Run(g, ops).value.count <= 1
    ensures Run(g, ops).Some? ==> |Run(g, ops).value.transit| <= 1
    decreases |ops|
  {
    if |ops| > 0 {
      match ops[0]
      case Wait(id) =>
        if Open(g) {
          RunKeepsExclusive(Enter(g, id), ops[1..]);
        }
      case Release =>
        var next := Leave(g);
        if next.Some? {
          RunKeepsExclusive(next.value, ops[1..]);
        }
    }
  }

  /** A vessel passes, then the other port lets it out: the gate is back to
      its fresh state and is ready for the next vessel. */
  lemma OnePassage(id: int)
    ensures Run(Create(), [Wait(id), Release]) == Some(Create())
  {
    var inside := Enter(Create(), id);
    assert Leave(inside) == Some(Create());
    assert Run(inside, [Release]) == Run(Create(), []);
    assert [Wait(id), Release][1..] == [Release];
  }

  /** A second vessel cannot enter while one is in the canal, and a release
      with nobody in the canal fails. */
  lemma NoOvertaking(id: int, other: int)
    ensures Run(Create(), [Wait(id), Wait(other)]).None?
    ensures Run(Create(), [Release]).None?
  {
    assert [Wait(id), Wait(other)][1..] == [Wait(other)];
  }
}

=== FILE: coordinator.dfy ===
/** The coordinator of Eilat Port: the `UnloadingQuay` thread and the part of
    each vessel thread that meets it at the barrier.

    A vessel arriving at Eilat Port enqueues itself in the barrier and signals
    `barrierSemaphore` (created with count 0 and maximum N). The coordinator
    loops while the barrier is non-empty or not every vessel has arrived; each
    iteration waits for C signals (C = the number of cranes = the number of
    stations), and when the barrier holds at least C vessels and the quay is
    vacant it releases the first C of them, waits for the batch to leave the
    quay and resets the stations.

    The blocking waits become preconditions: an iteration is only taken when C
    signals are available. The batch's passage through the quay, done by the
    vessel and crane threads, is `Quay.ServeBatch`. `arrived` and `served`
    record the vessels that entered the barrier and those released from it, in
    order. */
module Coordinator {
  import Barrier
  import Quay

  datatype Port = Port(
    vessels: int,                 // N, the barrier's limit and the semaphore's maximum
    barrier: Barrier.VesselQueue,
    quay: seq<Quay.Station>,
    signals: int,                 // the count of barrierSemaphore
    allArrived: bool,             // haveAllVesselsArrived
    arrived: seq<int>,
    served: seq<int>)

  /** The state once `main` has built the barrier and the quay and before any
      vessel has arrived. */
  function Init(n: int, cranesId: seq<int>): (p: Port)
    ensures Barrier.IsEmpty(p.barrier) && p.barrier.limit == n
    ensures Quay.Pristine(p.quay) && Quay.CraneIds(p.quay) == cranesId
    ensures p.signals == 0 && !p.allArrived && p.arrived == [] && p.served == []
  {
    Port(n, Barrier.Construct(n), Quay.Construct(cranesId), 0, false, [], [])
  }

  /** Number of stations, the batch size. */
  function QuaySize(p: Port): nat
  {
    |p.quay|
  }

  /** The guard of the coordinator's loop. */
  predicate Continues(p: Port)
  {
    !(Barrier.IsEmpty(p.barrier) && p.allArrived)
  }

  datatype ArrivalStatus = Waiting | EnqueueFailed | SignalFailed

  datatype Arrival = Arrival(status: ArrivalStatus, port: Port)

  /** A vessel thread entering the barrier: `enqueue` (on failure the thread
      ends and nothing changes) and then `ReleaseSemaphore(barrierSemaphore)`,
      which fails when the count is already N (the vessel is in the barrier
      but the thread ends). */
  function Arrive(p: Port, id: int): (r: Arrival)
    ensures r.status == EnqueueFailed <==> Barrier.Size(p.barrier) >= p.barrier.limit
    ensures r.status == EnqueueFailed ==> r.port == p
    ensures r.status != EnqueueFailed ==> r.port.barrier == p.barrier.(items := p.barrier.items + [id])
    ensures r.status == SignalFailed <==> r.status != EnqueueFailed && p.signals >= p.vessels
    ensures r.status == SignalFailed ==> r.port == p.(barrier := r.port.barrier, arrived := p.arrived + [id])
    ensures r.status == Waiting ==>
      r.port == p.(barrier := r.port.barrier, arrived := p.arrived + [id], signals := p.signals + 1)
  {
    var e := Barrier.Enqueue(p.barrier, id);
    if !e.ok then Arrival(EnqueueFailed, p)
    else
      var entered := p.(barrier := e.queue, arrived := p.arrived + [id]);
      if p.signals + 1 > p.vessels then Arrival(SignalFailed, entered)
      else Arrival(Waiting, entered.(signals := p.signals + 1))
  }

  /** `haveAllVesselsArrived = TRUE`, set by `main` once it has read every
      vessel id from the pipe. */
  function AllArrived(p: Port): (r: Port)
    ensures r.allArrived
    ensures r.(allArrived := p.allArrived) == p
  {
    p.(allArrived := true)
  }

  datatype CycleResult =
    | Idle(port: Port)                       // the re-check failed: nothing released
    | Released(batch: seq<int>, port: Port)  // a batch went through the quay
    | Halted                                 // a dequeue answered -1: the thread returned 1
    | Stuck                                  // a vessel found no station: the quay never empties

  /** One iteration of the coordinator's loop, after its C waits on
      `barrierSemaphore` have returned. A dequeue answering -1 makes the
      thread return 1; a batch in which some vessel finds no free station
      leaves the coordinator waiting forever for that station to be vacated. */
  function Cycle(p: Port, rolls: seq<nat>): (r: CycleResult)
    requires p.signals >= QuaySize(p) && |rolls| == QuaySize(p)
    ensures r.Idle? <==> !(Barrier.Size(p.barrier) >= QuaySize(p) && Quay.Vacant(p.quay))
    ensures r.Idle? ==> r.port == p.(signals := p.signals - QuaySize(p))
    ensures r.Released? ==>
      && r.batch == p.barrier.items[..QuaySize(p)]
      && r.port.barrier == p.barrier.(items := p.barrier.items[QuaySize(p)..])
      && Quay.Vacant(r.port.quay)
      && Quay.CraneIds(r.port.quay) == Quay.CraneIds(p.quay)
      && r.port == p.(barrier := r.port.barrier, quay := r.port.quay,
                      signals := p.signals - QuaySize(p), served := p.served + r.batch)
    ensures r.Halted? ==> Barrier.Sentinel in p.barrier.items[..QuaySize(p)]
    ensures r.Stuck? ==> Quay.ServeBatch(p.quay, p.barrier.items[..QuaySize(p)], rolls).None?
  {
    var c := QuaySize(p);
    var waited := p.(signals := p.signals - c);
    if Barrier.Size(p.barrier) >= c && Quay.Vacant(p.quay) then
      var d := Barrier.DequeueN(p.barrier, c);
      if Barrier.Sentinel in d.ids then Halted
      else
        var unloaded := Quay.ServeBatch(p.quay, d.ids, rolls);
        if unloaded.None? then Stuck
        else Released(d.ids, waited.(barrier := d.rest, quay := Quay.RemoveVessels(unloaded.value),
                                     served := p.served + d.ids))
    else Idle(waited)
  }

  /** What holds of the coordinator in every state it reaches: the barrier is
      within its limit, each vessel in it has signalled exactly once, nothing
      has been lost or duplicated between arrival and release, the quay is
      pristine between batches, and vessel ids are positive. */
  predicate Inv(p: Port)
  {
    && p.barrier.limit == p.vessels
    && Barrier.Bounded(p.barrier)
    && |p.quay| >= 1
    && p.signals == Barrier.Size(p.barrier)
    && p.served + p.barrier.items == p.arrived
    && Quay.Pristine(p.quay)
    && (forall k :: 0 <= k < |p.arrived| ==> p.arrived[k] >= 1)
  }

  lemma InitEstablishes(n: nat, cranesId: seq<int>)
    requires |cranesId| >= 1
    ensures Inv(Init(n, cranesId))
    ensures Continues(Init(n, cranesId))
  {
  }

  /** An arrival keeps the invariant. While the barrier has room it always
      succeeds (enqueue accepts and the semaphore never overflows); on a full
      barrier it is refused and nothing changes. */
  lemma ArrivePreserves(p: Port, id: int)
    requires Inv(p) && id >= 1
    ensures Arrive(p, id).status != SignalFailed
    ensures Arrive(p, id).status == Waiting <==> Barrier.Size(p.barrier) < p.vessels
    ensures Inv(Arrive(p, id).port)
  {
  }

  lemma AllArrivedPreserves(p: Port)
    requires Inv(p)
    ensures Inv(AllArrived(p))
  {
  }

  /** In every reachable state the re-check after the C waits succeeds: the C
      signals stand for C vessels in the barrier and the quay is vacant. The
      coordinator releases exactly the C oldest vessels, in arrival order, and
      returns to a state satisfying the invariant with the quay as it was. */
  lemma CyclePreserves(p: Port, rolls: seq<nat>)
    requires Inv(p) && p.signals >= QuaySize(p) && |rolls| == QuaySize(p)
    ensures Cycle(p, rolls).Released?
    ensures Cycle(p, rolls).batch == p.barrier.items[..QuaySize(p)]
    ensures Cycle(p, rolls).port.quay == p.quay
    ensures Inv(Cycle(p, rolls).port)
  {
    var c := QuaySize(p);
    var d := Barrier.DequeueN(p.barrier, c);
    assert Barrier.Sentinel !in d.ids by {
      forall k | 0 <= k < c
        ensures d.ids[k] >= 1
      {
        assert d.ids[k] == p.arrived[|p.served| + k];
      }
    }
    Quay.CycleRestoresQuay(p.quay, d.ids, rolls);
    var r := Cycle(p, rolls).port;
    assert r.served + r.barrier.items == p.served + (d.ids + p.barrier.items[c..]);
    assert d.ids + p.barrier.items[c..] == p.barrier.items;
  }

  /** When the loop ends in a reachable state every vessel that entered the
      barrier has been released from it, in the order of arrival. */
  lemma ExitMeansDrained(p: Port)
    requires Inv(p) && !Continues(p)
    ensures p.allArrived
    ensures p.served == p.arrived
  {
    assert p.barrier.items == [];
  }

  /** Successive vessels entering the barrier, in the order given. */
  function ArriveAll(p: Port, ids: seq<int>): (r: Port)
    decreases |ids|
  {
    if |ids| == 0 then p else ArriveAll(Arrive(p, ids[0]).port, ids[1..])
  }

  /** While the barrier has room for all of them, the vessels enter it in
      order and each signals once. */
  lemma {:induction false} ArriveAllPreserves(p: Port, ids: seq<int>)
    requires Inv(p) && Barrier.Size(p.barrier) + |ids| <= p.vessels
    requires forall k :: 0 <= k < |ids| ==> ids[k] >= 1
    ensures Inv(ArriveAll(p, ids))
    ensures ArriveAll(p, ids).barrier.items == p.barrier.items + ids
    ensures ArriveAll(p, ids).arrived == p.arrived + ids
    ensures ArriveAll(p, ids).served == p.served
    ensures ArriveAll(p, ids).quay == p.quay
    ensures ArriveAll(p, ids).allArrived == p.allArrived
    decreases |ids|
  {
    if |ids| > 0 {
      ArrivePreserves(p, ids[0]);
      var next := Arrive(p, ids[0]).port;
      ArriveAllPreserves(next, ids[1..]);
      assert [ids[0]] + ids[1..] == ids;
      assert p.barrier.items + [ids[0]] + ids[1..] == p.barrier.items + ids;
      assert p.arrived + [ids[0]] + ids[1..] == p.arrived + ids;
    } else {
      assert p.barrier.items + ids == p.barrier.items;
      assert p.arrived + ids == p.arrived;
    }
  }

  /** How the coordinator's loop proceeds over scheduled iterations. */
  datatype Run = Exited(port: Port) | Blocked(port: Port) | Failed

  /** The coordinator's loop, one scheduled iteration per element of `rounds`
      (each supplying the cargo draws of its batch): the guard is tested
      first; an iteration whose waits cannot all return yet leaves the thread
      blocked. */
  function Loop(p: Port, rounds: seq<seq<nat>>): (r: Run)
    ensures r.Exited? ==> !Continues(r.port)
    ensures r.Blocked? ==> Continues(r.port)
    ensures !r.Failed? ==>
      && r.port.vessels == p.vessels && r.port.allArrived == p.allArrived
      && r.port.arrived == p.arrived
      && p.served <= r.port.served
    decreases |rounds|
  {
    if !Continues(p) then Exited(p)
    else if |rounds| == 0 || p.signals < QuaySize(p) || |rounds[0]| != QuaySize(p) then Blocked(p)
    else match Cycle(p, rounds[0])
      case Halted => Failed
      case Stuck => Blocked(p)
      case Idle(next) => Loop(next, rounds[1..])
      case Released(_, next) => Loop(next, rounds[1..])
  }

  /** Once all vessels have arrived and the barrier holds k full batches, k
      iterations release them all, in order, and the loop ends with the quay
      pristine. */
  lemma {:induction false} LoopDrains(p: Port, rounds: seq<seq<nat>>)
    requires Inv(p) && p.allArrived
    requires Barrier.Size(p.barrier) == QuaySize(p) * |rounds|
    requires forall i :: 0 <= i < |rounds| ==> |rounds[i]| == QuaySize(p)
    ensures Loop(p, rounds).Exited?
    ensures Loop(p, rounds).port.served == p.served + p.barrier.items
    ensures Loop(p, rounds).port.served == p.arrived
    ensures Loop(p, rounds).port.quay == p.quay
    decreases |rounds|
  {
    if |rounds| > 0 {
      var c := QuaySize(p);
      assert c * |rounds| == c * (|rounds| - 1) + c;
      assert c * (|rounds| - 1) >= 0;
      CyclePreserves(p, rounds[0]);
      var next := Cycle(p, rounds[0]).port;
      assert Barrier.Size(next.barrier) == c * |rounds[1..]|;
      LoopDrains(next, rounds[1..]);
      assert next.served + next.barrier.items == p.served + p.barrier.items;
    } else {
      assert p.barrier.items == [];
    }
  }

  /** The loop guard reads a flag that `main` sets once it has read every id
      from the pipe, not once every vessel has entered the barrier. If the flag
      is set while two of four vessels are still on their way to the barrier,
      the first batch is released, the barrier is empty, and the loop exits:
      vessels 3 and 4 are never served. */
  lemma EarlyExit()
    ensures var p := AllArrived(ArriveAll(Init(4, [1, 2]), [1, 2]));
      && Inv(p) && |p.arrived| < p.vessels
      && Loop(p, [[0, 0]]).Exited?
      && Loop(p, [[0, 0]]).port.served == [1, 2]
  {
    var p0 := Init(4, [1, 2]);
    InitEstablishes(4, [1, 2]);
    ArriveAllPreserves(p0, [1, 2]);
    var p1 := ArriveAll(p0, [1, 2]);
    AllArrivedPreserves(p1);
    var p := AllArrived(p1);
    CyclePreserves(p, [0, 0]);
  }

  /** A whole run of Eilat Port's barrier for N = C * k vessels when the flag
      is set only once all N vessels are in the barrier: the vessels arrive in
      `order`, then `main` declares them all arrived, and k iterations of the
      coordinator release every one of them, batch by batch, in exactly the
      order they arrived; the loop then ends with the quay as built. */
  lemma ServesInArrivalOrder(n: nat, cranesId: seq<int>, order: seq<int>, rounds: seq<seq<nat>>)
    requires |cranesId| >= 1 && |cranesId| * |rounds| == n && |order| == n
    requires forall k :: 0 <= k < n ==> order[k] >= 1
    requires forall i :: 0 <= i < |rounds| ==> |rounds[i]| == |cranesId|
    ensures Loop(AllArrived(ArriveAll(Init(n, cranesId), order)), rounds).Exited?
    ensures Loop(AllArrived(ArriveAll(Init(n, cranesId), order)), rounds).port.served == order
    ensures Loop(AllArrived(ArriveAll(Init(n, cranesId), order)), rounds).port.quay == Quay.Construct(cranesId)
  {
    var p0 := Init(n, cranesId);
    InitEstablishes(n, cranesId);
    ArriveAllPreserves(p0, order);
    var p1 := ArriveAll(p0, order);
    AllArrivedPreserves(p1);
    assert [] + order == order;
    LoopDrains(AllArrived(p1), rounds);
  }
}

=== FILE: handshake.dfy ===
/** The conversation between the two ports over the two pipes. Every message is
    one 60-byte frame carrying a decimal int (module Wire).

    Med. Sea ==> Red Sea (Haifa Port writes, Eilat Port reads):
      the vessel count N, then one vessel id per vessel entering the canal, then
      1 once every vessel is back home.
    Med. Sea <== Red Sea (Eilat Port writes, Haifa Port reads):
      the passage result (1 approved, 0 denied), then one vessel id per vessel
      sailing back, then 1 once Eilat Port has finished.

    A session is the sequential view of one process: it consumes the frames it
    reads, in order, and yields how the process ends together with the values
    it wrote. A read beyond the last frame is a failed ReadFile. Every vessel
    thread writes its own id once it has passed the canal, and the order in
    which they pass is decided by the scheduler: it is a parameter
    (`departurePicks` on the Haifa side, `returnPicks` on the Eilat side, see
    `Ids.Schedule`). So are the `rand()` values Eilat Port draws while it
    searches for a crane count (`divisorRolls`). */
module Handshake {
  import opened Options
  import Wire
  import Ids
  import Passage

  const MinNumberOfVessels: int := 2
  const MaxNumberOfVessels: int := 50

  /** The C `TRUE` both ports send as the final "all done" message. */
  const Done: int := 1

  /** The vessel-count validation of Haifa Port's `main`: exactly one
      argument, read with atoi, and the count must lie in [2, 50]; otherwise
      the process exits before any pipe, semaphore or thread exists. */
  function ParseArguments(args: seq<seq<char>>): (r: Option<int>)
    ensures r.Some? ==> |args| == 2 && r.value == Wire.Atoi(args[1])
    ensures r.Some? ==> MinNumberOfVessels <= r.value <= MaxNumberOfVessels
    ensures |args| == 2 && MinNumberOfVessels <= Wire.Atoi(args[1]) <= MaxNumberOfVessels ==> r.Some?
  {
    if |args| != 2 then None
    else
      var n := Wire.Atoi(args[1]);
      if n < MinNumberOfVessels || n > MaxNumberOfVessels then None else Some(n)
  }

  /** A count typed on the command line in decimal is accepted exactly when it
      is in [2, 50], and then it is the count the port works with. */
  lemma ArgumentRoundTrip(program: seq<char>, n: int)
    ensures ParseArguments([program, Wire.FormatInt(n)]) ==
      (if MinNumberOfVessels <= n <= MaxNumberOfVessels then Some(n) else None)
  {
    Wire.TextRoundTrip(n);
  }

  datatype Outcome =
    | ReadFailed        // a ReadFile found the pipe closed: exit(EXIT_FAILURE)
    | PassageDenied     // the passage result was 0: exit(EXIT_SUCCESS)
    | NoCraneCount      // no draw of getRandomDivisor has been accepted: the search goes on drawing
    | BadVesselId(id: int)  // an id outside 1..N would index past the vessel arrays
    | VesselsStranded   // Haifa Port: some vessel is never released, so its thread waits on its semaphore for ever
    | VesselSlotUnset   // Eilat Port: some id 1..N never arrived, so the wait for all vessel threads gets an uninitialised handle
    | NotConfirmed      // the final message from the other port was 0: exit(EXIT_FAILURE)
    | Completed

  datatype Session = Session(outcome: Outcome, sent: seq<int>)

  /** The index of the first value outside 1..n, or |s| when there is none. */
  function FirstOutOfRange(s: seq<int>, n: int): (k: nat)
    ensures k <= |s|
    ensures forall j :: 0 <= j < k ==> 1 <= s[j] <= n
    ensures k < |s| ==> !(1 <= s[k] <= n)
    decreases |s|
  {
    if |s| == 0 || !(1 <= s[0] <= n) then 0 else 1 + FirstOutOfRange(s[1..], n)
  }

  /** Every id 1..n occurs among the tokens. */
  predicate CoversAll(tokens: seq<int>, n: int)
  {
    forall v :: 1 <= v <= n ==> v in tokens
  }

  /** `readIncomingVesselsFromEilatPort`: one ReleaseSemaphore on
      `vesselsSemaphores[id - 1]` per returning id. `released[k]` counts the
      releases of vessel k + 1; each vessel thread waits on its semaphore once,
      so it goes on exactly when it is released at least once. */
  method ReleaseReturningVessels(n: nat, tokens: seq<int>) returns (released: seq<nat>)
    requires Ids.InRange(tokens, n)
    ensures |released| == n
    ensures forall k :: 0 <= k < n ==> released[k] == multiset(tokens)[k + 1]
  {
    released := seq(n, k => 0);
    var i := 0;
    while i < |tokens|
      invariant 0 <= i <= |tokens|
      invariant |released| == n
      invariant forall k :: 0 <= k < n ==> released[k] == multiset(tokens[..i])[k + 1]
    {
      var id := tokens[i];
      assert tokens[..i + 1] == tokens[..i] + [id];
      released := released[id - 1 := released[id - 1] + 1];
      i := i + 1;
    }
    assert tokens[..i] == tokens;
  }

  /** When Eilat Port sends back a permutation of the ids, every vessel thread
      in Haifa Port is released exactly once; when the tokens miss a vessel,
      that vessel is never released. */
  lemma ReleasedExactlyOnce(n: nat, tokens: seq<int>)
    requires |tokens| == n && Ids.InRange(tokens, n)
    ensures Ids.IsIdPermutation(tokens, n) ==> forall v :: 1 <= v <= n ==> multiset(tokens)[v] == 1
    ensures !Ids.IsIdPermutation(tokens, n) ==> exists v :: 1 <= v <= n && multiset(tokens)[v] == 0
  {
    Ids.CoversIffPermutation(tokens, n);
    if Ids.IsIdPermutation(tokens, n) {
      Ids.PermutationCovers(tokens, n);
      forall v | 1 <= v <= n
        ensures multiset(tokens)[v] == 1
      {
        Ids.DistinctMultiplicity(tokens, v);
      }
    } else {
      var v :| 1 <= v <= n && v !in tokens;
      assert multiset(tokens)[v] == 0;
    }
  }

  /** Haifa Port after argument validation, for `n` vessels:
      `suezCanalPassageApproval` writes n and reads the passage result; a zero
      result exits before any vessel thread exists. Otherwise
      `createVesselThreads` creates vessels 1..n, each writes its id once it has
      passed the canal (in the order `departurePicks` schedules), n return tokens are read
      and each releases its vessel, and once every vessel is back
      `updateEilatAllVesselsDoneAndWaitForThreads` writes 1 and reads Eilat
      Port's confirmation, a zero being fatal. */
  function HaifaSession(n: int, departurePicks: seq<nat>, fromEilat: seq<Wire.Frame>): (r: Session)
    requires MinNumberOfVessels <= n <= MaxNumberOfVessels
    ensures |r.sent| >= 1 && r.sent[0] == n
    ensures r.outcome == Completed <==>
      |fromEilat| >= n + 2 && Wire.Atoi(fromEilat[0]) != 0
      && Ids.IsIdPermutation(Wire.Receive(fromEilat)[1..n + 1], n)
      && Wire.Atoi(fromEilat[n + 1]) != 0
    ensures r.outcome == PassageDenied <==> |fromEilat| >= 1 && Wire.Atoi(fromEilat[0]) == 0
    ensures r.outcome == PassageDenied ==> r.sent == [n]
    ensures r.outcome == Completed ==>
      var departures := Ids.Schedule(Ids.OneBased(n), departurePicks);
      r.sent == [n] + departures + [Done] && Ids.IsIdPermutation(departures, n)
    ensures (|fromEilat| >= n + 2 && Wire.Atoi(fromEilat[0]) != 0
             && Ids.IsIdPermutation(Wire.Receive(fromEilat)[1..n + 1], n) && Wire.Atoi(fromEilat[n + 1]) == 0) ==>
      r.outcome == NotConfirmed && r.sent == [n] + Ids.Schedule(Ids.OneBased(n), departurePicks) + [Done]
  {
    var got := Wire.Receive(fromEilat);
    if |got| == 0 then Session(ReadFailed, [n])
    else if got[0] == 0 then Session(PassageDenied, [n])
    else HaifaVessels(n, departurePicks, got)
  }

  /** Haifa Port once the passage is approved, for the values `got` read so
      far: the vessels sail in the order `departurePicks` schedules, the N
      return tokens release them, and the final 1 is exchanged. */
  function HaifaVessels(n: nat, departurePicks: seq<nat>, got: seq<int>): (r: Session)
    requires 1 <= |got|
    ensures |r.sent| >= 1 && r.sent[0] == n
    ensures !r.outcome.PassageDenied?
    ensures r.outcome == Completed <==>
      |got| >= n + 2 && Ids.IsIdPermutation(got[1..n + 1], n) && got[n + 1] != 0
    ensures r.outcome == Completed ==>
      var departures := Ids.Schedule(Ids.OneBased(n), departurePicks);
      r.sent == [n] + departures + [Done] && Ids.IsIdPermutation(departures, n)
    ensures |got| >= n + 2 && Ids.IsIdPermutation(got[1..n + 1], n) && got[n + 1] == 0 ==>
      r.outcome == NotConfirmed && r.sent == [n] + Ids.Schedule(Ids.OneBased(n), departurePicks) + [Done]
  {
    var sailed := [n] + Ids.Schedule(Ids.OneBased(n), departurePicks);
    if |got| < n + 1 then Session(ReadFailed, sailed)
    else
      var tokens := got[1..n + 1];
      var bad := FirstOutOfRange(tokens, n);
      if bad < |tokens| then Session(BadVesselId(tokens[bad]), sailed)
      else
        Ids.CoversIffPermutation(tokens, n);
        if !CoversAll(tokens, n) then Session(VesselsStranded, sailed)
        else
          var finished := sailed + [Done];
          if |got| < n + 2 then Session(ReadFailed, finished)
          else if got[n + 1] == 0 then Session(NotConfirmed, finished)
          else
            Ids.ScheduledIds(n, departurePicks);
            Session(Completed, finished)
  }

  /** Eilat Port: `getNumberOfVesselsFromHaifaPort` reads N and
      `writeToHaifaPortPassageResult` answers `!isPrimeNumber(N)`, exiting on a
      denial. `getRandomDivisor(N)` then draws `divisorRolls` until a candidate
      divides N. Eilat Port does not validate N itself, but a count below 1 is
      "prime" to `isPrimeNumber` and is denied. Then
      `readAndCreateIncomingVesselsFromHaifaPort` reads N ids and creates one
      vessel thread per id read (stored at index id - 1); each writes its own
      id once it has passed the canal back, in the order `returnPicks`
      schedules, and `areAllVesselsDoneatHaifaPort` reads Haifa Port's 1. A zero
      there exits the process, so the final 1 of
      `writeToHaifaPortThatEilatPortIsDone` is written only after a nonzero
      confirmation. */
  function EilatSession(fromHaifa: seq<Wire.Frame>, divisorRolls: seq<nat>, returnPicks: seq<nat>): (r: Session)
    ensures |r.sent| <= |fromHaifa|
    ensures |fromHaifa| >= 1 ==> |r.sent| >= 1 && r.sent[0] == Passage.WritePassageResult(Wire.Atoi(fromHaifa[0])).result
    ensures r.outcome == PassageDenied <==> |fromHaifa| >= 1 && Passage.IsPrime(Wire.Atoi(fromHaifa[0]))
    ensures r.outcome == PassageDenied ==> r.sent == [0]
    ensures |fromHaifa| >= 1 && Wire.Atoi(fromHaifa[0]) <= 0 ==> r.outcome == PassageDenied
    ensures r.outcome == NoCraneCount <==> (|fromHaifa| >= 1 && !Passage.IsPrime(Wire.Atoi(fromHaifa[0]))
                                             && Passage.FirstDivisor(Wire.Atoi(fromHaifa[0]), divisorRolls).None?)
    ensures r.outcome == Completed <==> |fromHaifa| >= 1 && var n := Wire.Atoi(fromHaifa[0]);
      n > 2 && !Passage.IsPrime(n) && Passage.FirstDivisor(n, divisorRolls).Some?
      && |fromHaifa| >= n + 2
      && Ids.IsIdPermutation(Wire.Receive(fromHaifa)[1..n + 1], n)
      && Wire.Atoi(fromHaifa[n + 1]) != 0
    ensures |fromHaifa| >= 1 ==> var n := Wire.Atoi(fromHaifa[0]);
      (n > 2 && !Passage.IsPrime(n) && Passage.FirstDivisor(n, divisorRolls).Some?
       && |fromHaifa| >= n + 2
       && Ids.IsIdPermutation(Wire.Receive(fromHaifa)[1..n + 1], n)
       && Wire.Atoi(fromHaifa[n + 1]) == 0)
      ==> r.outcome == NotConfirmed
          && r.sent == [1] + Ids.Schedule(Wire.Receive(fromHaifa)[1..n + 1], returnPicks)
    ensures r.outcome != Completed && |fromHaifa| >= 1 && Wire.Atoi(fromHaifa[0]) >= 1 ==>
      |r.sent| <= Wire.Atoi(fromHaifa[0]) + 1
    ensures r.outcome == Completed ==> |fromHaifa| >= 1 && var n := Wire.Atoi(fromHaifa[0]);
      n > 2 && !Passage.IsPrime(n) && Passage.FirstDivisor(n, divisorRolls).Some?
      && |fromHaifa| >= n + 2
      && Ids.IsIdPermutation(Wire.Receive(fromHaifa)[1..n + 1], n)
      && Wire.Atoi(fromHaifa[n + 1]) != 0
      && var homeward := Ids.Schedule(Wire.Receive(fromHaifa)[1..n + 1], returnPicks);
      r.sent == [1] + homeward + [Done]
      && multiset(homeward) == multiset(Wire.Receive(fromHaifa)[1..n + 1])
      && Ids.IsIdPermutation(homeward, n)
  {
    var got := Wire.Receive(fromHaifa);
    if |got| == 0 then Session(ReadFailed, [])
    else
      var n := got[0];
      var reply := Passage.WritePassageResult(n);
      if !reply.eilatContinues then Session(PassageDenied, [reply.result])
      else
        Passage.CranesNeedThreeVessels(n, divisorRolls);
        if Passage.FirstDivisor(n, divisorRolls).None? then Session(NoCraneCount, [reply.result])
        else EilatVessels(n, got, returnPicks)
  }

  /** Eilat Port once the passage is approved and a crane count found, for the
      values `got` read so far (`got[0]` being N): the N ids, one vessel thread
      per id, the ids written back in the order `returnPicks` lets the vessels
      through the canal, and Haifa Port's confirmation. */
  function EilatVessels(n: int, got: seq<int>, returnPicks: seq<nat>): (r: Session)
    requires 1 <= n && 1 <= |got|
    ensures 1 <= |r.sent| <= |got| && r.sent[0] == 1
    ensures !r.outcome.PassageDenied? && !r.outcome.NoCraneCount?
    ensures r.outcome == Completed <==>
      |got| >= n + 2 && Ids.IsIdPermutation(got[1..n + 1], n) && got[n + 1] != 0
    ensures |got| >= n + 2 && Ids.IsIdPermutation(got[1..n + 1], n) && got[n + 1] == 0 ==>
      r.outcome == NotConfirmed && r.sent == [1] + Ids.Schedule(got[1..n + 1], returnPicks)
    ensures r.outcome != Completed ==> |r.sent| <= n + 1
    ensures r.outcome == Completed ==>
      |got| >= n + 2 && Ids.IsIdPermutation(got[1..n + 1], n) && got[n + 1] != 0
      && var homeward := Ids.Schedule(got[1..n + 1], returnPicks);
      r.sent == [1] + homeward + [Done] && Ids.IsIdPermutation(homeward, n)
  {
    if |got| < n + 1 then Session(ReadFailed, [1])
    else
      var ids := got[1..n + 1];
      var bad := FirstOutOfRange(ids, n);
      if bad < |ids| then Session(BadVesselId(ids[bad]), [1])
      else if !Ids.IsIdPermutation(ids, n) then Session(VesselSlotUnset, [1])
      else
        var homeward := Ids.Schedule(ids, returnPicks);
        Ids.PermutationOfPermutation(ids, homeward, n);
        var back := [1] + homeward;
        if |got| < n + 2 then Session(ReadFailed, back)
        else if got[n + 1] == 0 then Session(NotConfirmed, back)
        else Session(Completed, back + [Done])
  }

  /** Eilat Port, if it were ever handed N = 1, approves the passage and then
      never finds a crane count, however many values `rand()` yields: every
      candidate is `rand() % -1 + 2`, which is 2, and 2 does not divide 1. */
  lemma OneVesselNeverGetsCranes(fromHaifa: seq<Wire.Frame>, divisorRolls: seq<nat>, returnPicks: seq<nat>)
    requires |fromHaifa| >= 1 && Wire.Atoi(fromHaifa[0]) == 1
    ensures EilatSession(fromHaifa, divisorRolls, returnPicks).sent == [1]
    ensures EilatSession(fromHaifa, divisorRolls, returnPicks).outcome == NoCraneCount
  {
    Passage.NoDivisorOfOne(divisorRolls);
  }

  /** The frames that carry `values`, each printed into a buffer whose earlier
      content is the matching element of `stale`. */
  function Carry(stale: seq<Wire.Frame>, values: seq<int>): (frames: seq<Wire.Frame>)
    requires |values| <= |stale|
    requires forall i :: 0 <= i < |stale| ==> |stale[i]| == Wire.BufferSize
    requires forall i :: 0 <= i < |values| ==> Wire.IsInt32(values[i])
    ensures Wire.Receive(frames) == values
  {
    Wire.TraceRoundTrip(stale[..|values|], values);
    Wire.Frames(stale[..|values|], values)
  }

  /** The Med. Sea ==> Red Sea trace Haifa Port produces for a valid count:
      N alone when the passage is denied, otherwise N, the departures and 1. */
  function ToEilat(n: int, departures: seq<int>): seq<int>
  {
    if Passage.IsPrime(n) then [n] else [n] + departures + [Done]
  }

  predicate SmallValues(s: seq<int>)
  {
    forall i :: 0 <= i < |s| ==> Wire.IsInt32(s[i])
  }

  /** Eilat Port's side of the protocol, reading what Haifa Port wrote: the
      answer 0 for a prime count, otherwise a completed session that sends the
      ids it read back in the order the scheduler lets the vessels pass. */
  lemma EilatAnswers(n: int, departures: seq<int>, divisorRolls: seq<nat>, returnPicks: seq<nat>,
                     fromHaifa: seq<Wire.Frame>)
    requires MinNumberOfVessels <= n <= MaxNumberOfVessels
    requires Ids.IsIdPermutation(departures, n)
    requires !Passage.IsPrime(n) ==> Passage.FirstDivisor(n, divisorRolls).Some?
    requires Wire.Receive(fromHaifa) == ToEilat(n, departures)
    ensures Passage.IsPrime(n) ==>
      EilatSession(fromHaifa, divisorRolls, returnPicks) == Session(PassageDenied, [0])
    ensures !Passage.IsPrime(n) ==>
      EilatSession(fromHaifa, divisorRolls, returnPicks)
        == Session(Completed, [1] + Ids.Schedule(departures, returnPicks) + [Done])
  {
    assert Wire.Receive(fromHaifa)[0] == n;
    if !Passage.IsPrime(n) {
      assert n > 2;
      assert Wire.Receive(fromHaifa)[1..n + 1] == departures;
      assert Wire.Receive(fromHaifa)[n + 1] == Done;
    }
  }

  /** Haifa Port's side after an approval: N distinct returning ids and the
      final 1 complete its session. */
  lemma HaifaHears(n: int, departurePicks: seq<nat>, homeward: seq<int>, fromEilat: seq<Wire.Frame>)
    requires MinNumberOfVessels <= n <= MaxNumberOfVessels
    requires Ids.IsIdPermutation(homeward, n)
    requires Wire.Receive(fromEilat) == [1] + homeward + [Done]
    ensures HaifaSession(n, departurePicks, fromEilat)
      == Session(Completed, [n] + Ids.Schedule(Ids.OneBased(n), departurePicks) + [Done])
  {
    assert Wire.Receive(fromEilat)[1..n + 1] == homeward;
  }

  /** Every message of Eilat Port's completed session fits an `int`. */
  lemma ReplySmall(n: nat, homeward: seq<int>)
    requires n <= MaxNumberOfVessels && Ids.IsIdPermutation(homeward, n)
    ensures SmallValues([0]) && SmallValues([1] + homeward + [Done])
  {
    var sent := [1] + homeward + [Done];
    forall i | 0 <= i < |sent|
      ensures Wire.IsInt32(sent[i])
    {
      if 1 <= i <= n {
        assert sent[i] == homeward[i - 1];
      }
    }
  }

  /** Every message of Haifa Port's trace fits an `int`. */
  lemma SentSmall(n: int, departures: seq<int>)
    requires MinNumberOfVessels <= n <= MaxNumberOfVessels && Ids.IsIdPermutation(departures, n)
    ensures SmallValues(ToEilat(n, departures))
  {
    var sent := [n] + departures + [Done];
    forall i | 0 <= i < |sent|
      ensures Wire.IsInt32(sent[i])
    {
      if 1 <= i <= n {
        assert sent[i] == departures[i - 1];
      }
    }
  }

  /** The whole protocol for a valid vessel count, with both pipes carrying
      frames whose unused bytes are arbitrary: Eilat Port reads what Haifa Port
      writes and Haifa Port reads what Eilat Port writes, whatever order the
      scheduler lets the vessels through the canal in either direction. For a
      prime count both ports stop after the passage answer 0; for a composite
      count both complete, every vessel is released in Haifa Port exactly once,
      and each pipe carries [N or result] ++ ids ++ [1]. For a composite count
      the draws of `getRandomDivisor` must reach an accepted one (for every
      composite count some draw is, `Passage.SomeRoundAcceptsIffNotPrime`). */
  lemma Protocol(n: int, departurePicks: seq<nat>, divisorRolls: seq<nat>, returnPicks: seq<nat>,
                 staleHaifa: seq<Wire.Frame>, staleEilat: seq<Wire.Frame>)
    requires MinNumberOfVessels <= n <= MaxNumberOfVessels
    requires !Passage.IsPrime(n) ==> Passage.FirstDivisor(n, divisorRolls).Some?
    requires |staleHaifa| == n + 2 && |staleEilat| == n + 2
    requires forall i :: 0 <= i < n + 2 ==> |staleHaifa[i]| == Wire.BufferSize
    requires forall i :: 0 <= i < n + 2 ==> |staleEilat[i]| == Wire.BufferSize
    ensures var departures := Ids.Schedule(Ids.OneBased(n), departurePicks);
      var homeward := Ids.Schedule(departures, returnPicks);
      SmallValues(ToEilat(n, departures))
      && var eilat := EilatSession(Carry(staleHaifa, ToEilat(n, departures)), divisorRolls, returnPicks);
      SmallValues(eilat.sent)
      && var haifa := HaifaSession(n, departurePicks, Carry(staleEilat, eilat.sent));
      haifa.sent == ToEilat(n, departures)
      && (Passage.IsPrime(n) ==>
            eilat.outcome == PassageDenied && haifa.outcome == PassageDenied && eilat.sent == [0])
      && (!Passage.IsPrime(n) ==>
            eilat.outcome == Completed && haifa.outcome == Completed
            && eilat.sent == [1] + homeward + [Done]
            && forall v :: 1 <= v <= n ==> multiset(homeward)[v] == 1)
  {
    var departures := Ids.Schedule(Ids.OneBased(n), departurePicks);
    var homeward := Ids.Schedule(departures, returnPicks);
    Ids.ScheduledIds(n, departurePicks);
    Ids.PermutationOfPermutation(departures, homeward, n);
    SentSmall(n, departures);
    var fromHaifa := Carry(staleHaifa, ToEilat(n, departures));
    EilatAnswers(n, departures, divisorRolls, returnPicks, fromHaifa);
    var eilat := EilatSession(fromHaifa, divisorRolls, returnPicks);
    ReplySmall(n, homeward);
    var fromEilat := Carry(staleEilat, eilat.sent);
    if Passage.IsPrime(n) {
      assert Wire.Receive(fromEilat)[0] == 0;
    } else {
      HaifaHears(n, departurePicks, homeward, fromEilat);
      ReleasedExactlyOnce(n, homeward);
    }
  }
}

=== FILE: ids.dfy ===
/** Vessel and crane identities: both ports number their workers 1..n and keep
    worker `id` at array index `id - 1`. */
module Ids {

  /** The ids 1..n in ascending order, id `i` at index `i - 1`. */
  function OneBased(n: nat): seq<int>
  {
    seq(n, i => i + 1)
  }

  predicate Distinct(s: seq<int>)
  {
    forall i, j :: 0 <= i < j < |s| ==> s[i] != s[j]
  }

  /** Every value of `s` is a valid id 1..n. */
  predicate InRange(s: seq<int>, n: int)
  {
    forall k :: 0 <= k < |s| ==> 1 <= s[k] <= n
  }

  /** `s` lists the ids 1..n, each exactly once, in some order: the order in
      which the vessels happened to pass the canal. */
  predicate IsIdPermutation(s: seq<int>, n: nat)
  {
    |s| == n && InRange(s, n) && Distinct(s)
  }

  /** The id-assignment loop of `createVesselThreads` (and of
      `createCraneThreads`): `ids[i - 1] := i` for i = 1..n. */
  method AssignIds(n: nat) returns (ids: seq<int>)
    ensures IsIdPermutation(ids, n)
    ensures forall k :: 0 <= k < n ==> ids[k] == k + 1
    ensures ids == OneBased(n)
  {
    ids := [];
    var i := 1;
    while i <= n
      invariant 1 <= i <= n + 1
      invariant |ids| == i - 1
      invariant forall k :: 0 <= k < |ids| ==> ids[k] == k + 1
    {
      ids := ids + [i];
      i := i + 1;
    }
  }

  lemma {:induction false} DistinctCard(s: seq<int>)
    requires Distinct(s)
    ensures |set x | x in s| == |s|
  {
    if |s| > 0 {
      var init := s[..|s| - 1];
      assert Distinct(init);
      DistinctCard(init);
      assert (set x | x in s) == (set x | x in init) + {s[|s| - 1]};
      assert s[|s| - 1] !in init;
    } else {
      assert (set x | x in s) == {};
    }
  }

  /** The ids 1..n as a set. */
  function IdSet(n: nat): set<int>
  {
    set x | x in OneBased(n)
  }

  lemma SubsetCard(a: set<int>, b: set<int>)
    requires a <= b
    ensures |a| <= |b|
  {
    assert b == a + (b - a);
  }

  /** Pigeonhole: n distinct ids drawn from 1..n name every id 1..n. */
  lemma PermutationCovers(s: seq<int>, n: nat)
    requires IsIdPermutation(s, n)
    ensures forall v :: 1 <= v <= n ==> v in s
  {
    var seen := set x | x in s;
    var all := IdSet(n);
    DistinctCard(s);
    DistinctCard(OneBased(n));
    forall x | x in seen
      ensures x in all
    {
      assert OneBased(n)[x - 1] == x;
    }
    forall v | 1 <= v <= n
      ensures v in s
    {
      assert OneBased(n)[v - 1] == v;
      if v !in seen {
        SubsetCard(seen, all - {v});
        assert false;
      }
    }
  }

  lemma {:induction false} SetCardAtMost(s: seq<int>)
    ensures |set x | x in s| <= |s|
  {
    if |s| > 0 {
      var init := s[..|s| - 1];
      SetCardAtMost(init);
      assert (set x | x in s) == (set x | x in init) + {s[|s| - 1]};
    } else {
      assert (set x | x in s) == {};
    }
  }

  /** A repeated id leaves fewer distinct ids than entries. */
  lemma RepeatCard(s: seq<int>, i: int, j: int)
    requires 0 <= i < j < |s| && s[i] == s[j]
    ensures |set x | x in s| < |s|
  {
    var without := s[..j] + s[j + 1..];
    assert s == s[..j] + [s[j]] + s[j + 1..];
    assert s[j] == without[i];
    assert (set x | x in s) == (set x | x in without);
    SetCardAtMost(without);
  }

  /** For n tokens that are all valid ids, naming every id 1..n and being a
      permutation of 1..n are the same thing. */
  lemma CoversIffPermutation(s: seq<int>, n: nat)
    requires |s| == n && InRange(s, n)
    ensures (forall v :: 1 <= v <= n ==> v in s) <==> IsIdPermutation(s, n)
  {
    if IsIdPermutation(s, n) {
      PermutationCovers(s, n);
    } else if forall v :: 1 <= v <= n ==> v in s {
      var i, j :| 0 <= i < j < |s| && s[i] == s[j];
      RepeatCard(s, i, j);
      DistinctCard(OneBased(n));
      forall x | x in IdSet(n)
        ensures x in (set y | y in s)
      {
      }
      SubsetCard(IdSet(n), set y | y in s);
      assert false;
    }
  }

  /** In a permutation every id occurs exactly once. */
  lemma {:induction false} DistinctMultiplicity(s: seq<int>, v: int)
    requires Distinct(s)
    ensures multiset(s)[v] == (if v in s then 1 else 0)
  {
    if |s| > 0 {
      var init := s[..|s| - 1];
      assert s == init + [s[|s| - 1]];
      assert Distinct(init);
      DistinctMultiplicity(init, v);
      assert multiset(s) == multiset(init) + multiset{s[|s| - 1]};
      assert s[|s| - 1] !in init;
    }
  }

  /** An id repeated at two positions occurs at least twice. */
  lemma RepeatMultiplicity(s: seq<int>, i: int, j: int)
    requires 0 <= i < j < |s| && s[i] == s[j]
    ensures multiset(s)[s[i]] >= 2
  {
    assert s == s[..i] + [s[i]] + s[i + 1..j] + [s[j]] + s[j + 1..];
  }

  /** A rearrangement of a permutation of 1..n is again one: the vessels
      returning in another order are still every vessel exactly once. */
  lemma PermutationOfPermutation(a: seq<int>, b: seq<int>, n: nat)
    requires IsIdPermutation(a, n) && multiset(a) == multiset(b)
    ensures IsIdPermutation(b, n)
  {
    assert |b| == |multiset(b)| == |multiset(a)| == |a|;
    forall k | 0 <= k < |b|
      ensures 1 <= b[k] <= n
    {
      assert b[k] in multiset(b);
      assert b[k] in a;
    }
    forall i, j | 0 <= i < j < |b|
      ensures b[i] != b[j]
    {
      if b[i] == b[j] {
        RepeatMultiplicity(b, i, j);
        DistinctMultiplicity(a, b[i]);
        assert false;
      }
    }
  }

  /** The order in which waiting threads pass a point the scheduler controls
      (a canal semaphore, a pipe write). At each step `picks` names which of
      the threads still waiting goes next, counted modulo how many are left;
      once `picks` runs out, the first one waiting goes. Every thread passes
      exactly once, so the result rearranges `ids`. */
  function Schedule(ids: seq<int>, picks: seq<nat>): (r: seq<int>)
    ensures |r| == |ids|
    ensures multiset(r) == multiset(ids)
    decreases |ids|
  {
    if |ids| == 0 then []
    else
      var p := (if |picks| > 0 then picks[0] else 0) % |ids|;
      var rest := ids[..p] + ids[p + 1..];
      assert ids == ids[..p] + [ids[p]] + ids[p + 1..];
      [ids[p]] + Schedule(rest, if |picks| > 0 then picks[1..] else [])
  }

  /** Taking the element at `p` out of `ids` removes one copy of it. */
  lemma {:induction false} RemoveAt(ids: seq<int>, p: int)
    requires 0 <= p < |ids|
    ensures multiset(ids) == multiset(ids[..p] + ids[p + 1..]) + multiset{ids[p]}
  {
    assert ids == ids[..p] + [ids[p]] + ids[p + 1..];
  }

  /** A schedule whose first pick is `p` sends `ids[p]` first. */
  lemma {:induction false} ScheduleFirst(ids: seq<int>, p: nat, tail: seq<nat>)
    requires p < |ids|
    ensures Schedule(ids, [p] + tail) == [ids[p]] + Schedule(ids[..p] + ids[p + 1..], tail)
  {
    assert ([p] + tail)[1..] == tail;
    assert p % |ids| == p;
  }

  lemma {:induction false} CancelOne(a: multiset<int>, b: multiset<int>, x: int)
    requires a + multiset{x} == b + multiset{x}
    ensures a == b
  {
    forall y
      ensures a[y] == b[y]
    {
      assert (a + multiset{x})[y] == (b + multiset{x})[y];
    }
  }

  /** The first element of a rearrangement `r` of `ids` sits at some position
      `p` of `ids`, and the rest of `r` rearranges `ids` without it. */
  lemma {:induction false} PickFirst(ids: seq<int>, r: seq<int>) returns (p: nat)
    requires multiset(r) == multiset(ids) && |ids| > 0
    ensures p < |ids| && |r| == |ids| && ids[p] == r[0]
    ensures multiset(r[1..]) == multiset(ids[..p] + ids[p + 1..])
  {
    assert |r| == |multiset(r)| == |multiset(ids)| == |ids|;
    assert r[0] in multiset(ids);
    p :| 0 <= p < |ids| && ids[p] == r[0];
    var rest := ids[..p] + ids[p + 1..];
    RemoveAt(ids, p);
    RemoveAt(r, 0);
    assert r[..0] + r[1..] == r[1..];
    var left := multiset(r[1..]) + multiset{r[0]};
    var right := multiset(rest) + multiset{r[0]};
    assert left == multiset(r);
    assert right == multiset(ids);
    CancelOne(multiset(r[1..]), multiset(rest), r[0]);
  }

  /** Every rearrangement of `ids` is the order of some schedule, so taking
      `picks` as a parameter loses no interleaving. */
  lemma {:induction false} ScheduleReachesEvery(ids: seq<int>, r: seq<int>) returns (picks: seq<nat>)
    requires multiset(r) == multiset(ids)
    ensures Schedule(ids, picks) == r
    decreases |ids|
  {
    if |ids| == 0 {
      assert |r| == |multiset(r)| == 0;
      return [];
    }
    var p := PickFirst(ids, r);
    var tail := ScheduleReachesEvery(ids[..p] + ids[p + 1..], r[1..]);
    picks := [p] + tail;
    ScheduleFirst(ids, p, tail);
    assert r == [r[0]] + r[1..];
  }

  /** The ids 1..n are a permutation of 1..n. */
  lemma OneBasedIsPermutation(n: nat)
    ensures IsIdPermutation(OneBased(n), n)
  {
  }

  /** Whatever order the scheduler picks, the workers numbered 1..n pass in an
      order that lists 1..n, each exactly once. */
  lemma ScheduledIds(n: nat, picks: seq<nat>)
    ensures IsIdPermutation(Schedule(OneBased(n), picks), n)
  {
    OneBasedIsPermutation(n);
    PermutationOfPermutation(OneBased(n), Schedule(OneBased(n), picks), n);
  }
}

=== FILE: options.dfy ===
/** The optional result the model uses where the C code signals failure with a
    sentinel or by ending the thread. */
module Options {

  datatype Option<+T> = None | Some(value: T)
}

=== FILE: passage.dfy ===
/** Eilat Port's passage approval: the primality test on the vessel count, the
    inverted passage result it sends back to Haifa Port, and the random choice
    of the crane count among the divisors of the vessel count. */
module Passage {
  import opened Options
  import Rng

  /** `n % d == 0` for a positive `d`. C's `%` truncates toward zero and Dafny's
      is Euclidean, but the two remainders are zero for the same operands, so the
      divisibility tests of the C code mean exactly this. */
  predicate Divides(d: int, n: int)
  {
    d > 0 && n % d == 0
  }

  /** What `isPrimeNumber(n)` answers: FALSE for 1, otherwise TRUE exactly when
      no `i` in [2, n) divides `n`. (For n <= 0 the loop body never runs and the
      answer is TRUE; the protocol never asks about such counts.) */
  predicate IsPrime(n: int)
  {
    n != 1 && forall i :: 2 <= i < n ==> !Divides(i, n)
  }

  /** `isPrimeNumber`: trial division by 2, 3, ..., n - 1, answering FALSE at the
      first divisor found. */
  method IsPrimeNumber(n: int) returns (prime: bool)
    ensures prime <==> IsPrime(n)
  {
    if n == 1 {
      return false;
    }
    var i := 2;
    while i < n
      invariant 2 <= i
      invariant forall j :: 2 <= j < i && j < n ==> !Divides(j, n)
    {
      if n % i == 0 {
        assert Divides(i, n);
        return false;
      }
      i := i + 1;
    }
    return true;
  }

  /** `a * b == n` with both factors at least 2. */
  predicate Factors(a: int, b: int, n: int)
  {
    2 <= a && 2 <= b && a * b == n
  }

  /** n is a product of two factors, each at least 2. */
  ghost predicate Composite(n: int)
  {
    exists a, b :: Factors(a, b, n)
  }

  lemma MulAtLeast(a: int, k: int)
    requires 0 < a && 1 <= k
    ensures a * k >= a
  {
    assert a * k == a * (k - 1) + a;
    assert a * (k - 1) >= 0;
  }

  /** Euclidean division is unique: `n == a * q + r` with `0 <= r < a` fixes the
      quotient and the remainder. */
  lemma DivModUnique(n: int, a: int, q: int, r: int)
    requires 0 < a && 0 <= r < a && n == a * q + r
    ensures n % a == r && n / a == q
  {
    var q' := n / a;
    var r' := n % a;
    assert n == a * q' + r';
    assert a * (q - q') == r' - r;
    if q - q' >= 1 {
      MulAtLeast(a, q - q');
    } else if q' - q >= 1 {
      MulAtLeast(a, q' - q);
    }
  }

  /** A product of two factors that are both at least 2 is divisible by each
      and larger than each. */
  lemma MultipleDivides(a: int, b: int)
    requires 2 <= a && 2 <= b
    ensures Divides(a, a * b)
    ensures a < a * b
  {
    DivModUnique(a * b, a, b, 0);
    MulAtLeast(a, b - 1);
    assert a * b == a * (b - 1) + a;
  }

  /** A divisor `d` of `n` in [2, n - 1] leaves a cofactor of at least 2. */
  lemma Cofactor(n: int, d: int)
    requires 2 <= d < n && Divides(d, n)
    ensures n == d * (n / d)
    ensures n / d >= 2
  {
    var b := n / d;
    assert n == d * b + n % d;
    if b < 0 {
      MulAtLeast(d, -b);
      assert false;
    } else if b == 0 || b == 1 {
      assert false;
    }
  }

  /** Trial division agrees with the textbook definition: for n >= 2,
      `isPrimeNumber(n)` is TRUE exactly when n is not a product of two factors
      that are both at least 2. */
  lemma PrimeIffNotComposite(n: int)
    requires 2 <= n
    ensures IsPrime(n) <==> !Composite(n)
  {
    if IsPrime(n) {
      if Composite(n) {
        var a, b :| Factors(a, b, n);
        MultipleDivides(a, b);
        assert false;
      }
    } else {
      var i :| 2 <= i < n && Divides(i, n);
      Cofactor(n, i);
      assert Factors(i, n / i, n);
    }
  }

  datatype PassageReply = PassageReply(result: int, eilatContinues: bool)

  /** `writeToHaifaPortPassageResult`: the result sent is `!isPrimeNumber(n)`, so
      1 ("approved") for a composite count and 0 ("denied") for a prime one, and
      Eilat Port exits right after sending a 0. */
  function WritePassageResult(n: int): (r: PassageReply)
    ensures r.result == 0 || r.result == 1
    ensures r.eilatContinues <==> r.result != 0
    ensures r.result == 1 <==> n == 1 || exists i :: 2 <= i < n && Divides(i, n)
  {
    var result := if IsPrime(n) then 0 else 1;
    PassageReply(result, result != 0)
  }

  /** For a vessel count Haifa Port accepts, passage is approved exactly when
      the count is composite. */
  lemma ApprovedIffComposite(n: int)
    requires 2 <= n
    ensures WritePassageResult(n).result == 1 <==> Composite(n)
  {
    PrimeIffNotComposite(n);
  }

  /** The divisor candidate of one round of `getRandomDivisor`:
      `rand() % (n - 2) + 2`. For n = 2 the remainder is a division by zero;
      that count is prime and never gets this far. For a count below 2 the
      divisor of the remainder is negative, and the candidate lies in
      [2, 3 - n]. */
  function DivisorCandidate(n: int, r: nat): (d: int)
    requires n != 2
    ensures 2 <= d
    ensures n > 2 ==> d <= n - 1
    ensures n < 2 ==> d <= 3 - n
  {
    Rng.CRemOfNaturalAnyDivisor(r, n - 2);
    Rng.CRem(r, n - 2) + 2
  }

  /** One round of `getRandomDivisor`'s retry loop: the candidate is accepted
      when it divides `n`. An accepted crane count lies in [2, n - 1], divides
      the vessel count, and so splits the vessels into at least two full
      batches. */
  function TryDivisor(n: int, r: nat): (d: Option<int>)
    requires n > 2
    ensures d.Some? ==> d.value == DivisorCandidate(n, r)
    ensures d.Some? ==> 2 <= d.value <= n - 1 && Divides(d.value, n)
    ensures d.Some? ==> n / d.value >= 2 && n == (n / d.value) * d.value
    ensures d.None? ==> !Divides(DivisorCandidate(n, r), n)
  {
    var candidate := DivisorCandidate(n, r);
    if n % candidate == 0 then
      Cofactor(n, candidate);
      Some(candidate)
    else None
  }

  /** `getRandomDivisor` over the successive `rand()` values `rolls`: the
      candidate of the first round that divides `n`, or `None` when no round
      among `rolls` is accepted (the C loop then goes on drawing). */
  function FirstDivisor(n: int, rolls: seq<nat>): (d: Option<int>)
    requires n != 2
    ensures d.Some? <==> exists k :: 0 <= k < |rolls| && Divides(DivisorCandidate(n, rolls[k]), n)
    ensures d.Some? ==> 2 <= d.value && Divides(d.value, n)
    ensures d.Some? && n > 2 ==> d.value <= n - 1
    ensures d.Some? && n < 2 ==> d.value <= 3 - n
    ensures d.Some? ==> (exists k :: 0 <= k < |rolls| && d.value == DivisorCandidate(n, rolls[k])
                           && forall j :: 0 <= j < k ==> !Divides(DivisorCandidate(n, rolls[j]), n))
    decreases |rolls|
  {
    if |rolls| == 0 then None
    else
      var candidate := DivisorCandidate(n, rolls[0]);
      if n % candidate == 0 then Some(candidate)
      else
        var rest := FirstDivisor(n, rolls[1..]);
        assert forall k :: 1 <= k < |rolls| ==> rolls[1..][k - 1] == rolls[k];
        assert rest.Some? ==> (exists k :: 1 <= k < |rolls| && rest.value == DivisorCandidate(n, rolls[k])
                                 && forall j :: 0 <= j < k ==> !Divides(DivisorCandidate(n, rolls[j]), n));
        rest
  }

  /** A single vessel never gets a crane count: every candidate for n = 1 is
      `rand() % -1 + 2`, which is 2, and 2 does not divide 1. */
  lemma {:induction false} NoDivisorOfOne(rolls: seq<nat>)
    ensures forall r: nat :: DivisorCandidate(1, r) == 2 && !Divides(2, 1)
    ensures FirstDivisor(1, rolls).None?
  {
    forall r: nat
      ensures DivisorCandidate(1, r) == 2
    {
      Rng.CRemOfNaturalAnyDivisor(r, -1);
    }
  }

  /** A count that is approved and gets a crane count is above 2: 2 is prime,
      and no draw is accepted for 1. Counts below 1 are never approved. */
  lemma CranesNeedThreeVessels(n: int, rolls: seq<nat>)
    requires !IsPrime(n)
    ensures n != 2 && 1 <= n
    ensures FirstDivisor(n, rolls).Some? ==> n > 2
  {
    if n == 1 {
      NoDivisorOfOne(rolls);
    }
  }

  /** Every divisor in [2, n - 1] is the accepted answer of some round. */
  lemma EveryDivisorReachable(n: int, d: int)
    requires n > 2 && 2 <= d <= n - 1 && Divides(d, n)
    ensures TryDivisor(n, d - 2) == Some(d)
  {
    Rng.CRemOfNatural(d - 2, n - 2);
    DivModUnique(d - 2, n - 2, 0, d - 2);
    assert DivisorCandidate(n, d - 2) == d;
  }

  /** The retry loop can stop exactly when the vessel count is not prime: for a
      prime count every round is refused. */
  lemma SomeRoundAcceptsIffNotPrime(n: int)
    requires n > 2
    ensures (exists r: nat :: TryDivisor(n, r).Some?) <==> !IsPrime(n)
  {
    if !IsPrime(n) {
      var i :| 2 <= i < n && Divides(i, n);
      EveryDivisorReachable(n, i);
      assert TryDivisor(n, i - 2).Some?;
    }
  }
}

=== FILE: quay.dfy ===
/** The unloading quay of Eilat Port: one station per crane, station `i`
    belonging to crane `i + 1`. A station pairs its crane with at most one
    vessel and that vessel's cargo. The C `int` flag `isOccupied` is a `bool`
    here (FALSE is `false`, TRUE is `true`). */
module Quay {
  import opened Options
  import Rng

  /** The "no vessel" and "no cargo" marks of a station. */
  const NoVessel: int := -1
  const NoCargo: int := -1

  datatype Station = Station(craneId: int, vesselId: int, cargoWeight: int, isOccupied: bool)

  /** A station with no vessel: what `isUnloadingQuayEmpty` tests of each one. */
  predicate Free(s: Station)
  {
    s.vesselId == NoVessel && !s.isOccupied
  }

  /** Every station free. */
  predicate Vacant(q: seq<Station>)
  {
    forall i :: 0 <= i < |q| ==> Free(q[i])
  }

  /** Every station as construction leaves it: free and without cargo. */
  predicate Pristine(q: seq<Station>)
  {
    forall i :: 0 <= i < |q| ==> Free(q[i]) && q[i].cargoWeight == NoCargo
  }

  /** Which crane owns each station. */
  function CraneIds(q: seq<Station>): seq<int>
  {
    seq(|q|, i requires 0 <= i < |q| => q[i].craneId)
  }

  /** `constructUnloadingQuay(cranesId, numberOfCranes)`: one station per crane,
      station `i` owned by `cranesId[i]`, no vessel and no cargo anywhere. */
  function Construct(cranesId: seq<int>): (q: seq<Station>)
    ensures |q| == |cranesId|
    ensures Pristine(q)
    ensures CraneIds(q) == cranesId
  {
    seq(|cranesId|, i requires 0 <= i < |cranesId| => Station(cranesId[i], NoVessel, NoCargo, false))
  }

  /** A pristine quay is determined by its cranes: two pristine quays with the
      same crane ids are the same quay. */
  lemma PristineDeterminedByCranes(a: seq<Station>, b: seq<Station>)
    requires Pristine(a) && Pristine(b) && CraneIds(a) == CraneIds(b)
    ensures a == b
  {
    assert |a| == |CraneIds(a)|;
    forall i | 0 <= i < |a|
      ensures a[i] == b[i]
    {
      assert CraneIds(a)[i] == a[i].craneId;
      assert CraneIds(b)[i] == b[i].craneId;
    }
  }

  /** `isUnloadingQuayEmpty`: scans the stations and answers FALSE at the first
      one that holds a vessel id or is marked occupied. */
  method IsUnloadingQuayEmpty(q: seq<Station>) returns (empty: bool)
    ensures empty <==> Vacant(q)
  {
    var i := 0;
    while i < |q|
      invariant 0 <= i <= |q|
      invariant forall j :: 0 <= j < i ==> Free(q[j])
    {
      if q[i].vesselId != NoVessel || q[i].isOccupied {
        return false;
      }
      i := i + 1;
    }
    return true;
  }

  /** `removeVesselsFromUnloadingQuay`: every station is marked unoccupied and
      its vessel id cleared; the crane and the cargo field are left alone. */
  function RemoveVessels(q: seq<Station>): (r: seq<Station>)
    ensures |r| == |q|
    ensures Vacant(r)
    ensures CraneIds(r) == CraneIds(q)
    ensures forall i :: 0 <= i < |q| ==> r[i].cargoWeight == q[i].cargoWeight
  {
    seq(|q|, i requires 0 <= i < |q| => q[i].(isOccupied := false, vesselId := NoVessel))
  }

  /** Resetting twice is resetting once, and resetting a vacant quay changes
      nothing. */
  lemma RemoveVesselsIdempotent(q: seq<Station>)
    ensures RemoveVessels(RemoveVessels(q)) == RemoveVessels(q)
    ensures Vacant(q) ==> RemoveVessels(q) == q
  {
  }

  /** The lowest index at or after `from` whose station is unoccupied, or -1. */
  function FirstFreeFrom(q: seq<Station>, from: nat): (k: int)
    requires from <= |q|
    ensures k == -1 || from <= k < |q|
    ensures k == -1 ==> forall j :: from <= j < |q| ==> q[j].isOccupied
    ensures k != -1 ==> !q[k].isOccupied && forall j :: from <= j < k ==> q[j].isOccupied
    decreases |q| - from
  {
    if from == |q| then -1
    else if !q[from].isOccupied then from
    else FirstFreeFrom(q, from + 1)
  }

  datatype Claimed = Claimed(index: int, quay: seq<Station>)

  /** A vessel's search-and-claim: the lowest-index unoccupied station gets the
      vessel id and is marked occupied, and nothing else changes; when every
      station is occupied the answer is -1 and the quay is unchanged. */
  function Claim(q: seq<Station>, vesselId: int): (r: Claimed)
    ensures |r.quay| == |q|
    ensures r.index == -1 <==> forall j :: 0 <= j < |q| ==> q[j].isOccupied
    ensures r.index == -1 ==> r.quay == q
    ensures r.index != -1 ==>
      && 0 <= r.index < |q|
      && !q[r.index].isOccupied
      && (forall j :: 0 <= j < r.index ==> q[j].isOccupied)
      && r.quay[r.index] == q[r.index].(vesselId := vesselId, isOccupied := true)
      && forall j :: 0 <= j < |q| && j != r.index ==> r.quay[j] == q[j]
  {
    var k := FirstFreeFrom(q, 0);
    if k == -1 then Claimed(-1, q)
    else Claimed(k, q[k := q[k].(vesselId := vesselId, isOccupied := true)])
  }

  /** `stationVesselInUnloadingQuay`: the scan-and-claim loop under
      `stationMutex`. It computes exactly the claim described by `Claim`. */
  method StationVesselInUnloadingQuay(q: seq<Station>, vesselId: int)
    returns (stationIndex: int, r: seq<Station>)
    ensures Claimed(stationIndex, r) == Claim(q, vesselId)
  {
    stationIndex := -1;
    r := q;
    var i := 0;
    while i < |q|
      invariant 0 <= i <= |q|
      invariant forall j :: 0 <= j < i ==> q[j].isOccupied
      invariant stationIndex == -1 && r == q
    {
      if !q[i].isOccupied {
        r := q[i := q[i].(vesselId := vesselId, isOccupied := true)];
        stationIndex := i;
        break;
      }
      i := i + 1;
    }
  }

  datatype Claims = Claims(indices: seq<int>, quay: seq<Station>)

  /** Vessels claiming stations one after another, in the order they took the
      station mutex. */
  function ClaimAll(q: seq<Station>, ids: seq<int>): (r: Claims)
    ensures |r.indices| == |ids|
    ensures |r.quay| == |q|
    decreases |ids|
  {
    if |ids| == 0 then Claims([], q)
    else
      var c := Claim(q, ids[0]);
      var rest := ClaimAll(c.quay, ids[1..]);
      Claims([c.index] + rest.indices, rest.quay)
  }

  /** The stations of `q0` with the vessels of `ids` placed in stations `from`
      and on, one each, in order. */
  predicate PlacedFrom(q0: seq<Station>, q: seq<Station>, from: nat, ids: seq<int>)
  {
    && |q| == |q0|
    && from + |ids| <= |q0|
    && (forall j :: 0 <= j < |q| && !(from <= j < from + |ids|) ==> q[j] == q0[j])
    && forall j :: from <= j < from + |ids| ==> q[j] == q0[j].(vesselId := ids[j - from], isOccupied := true)
  }

  lemma {:induction false} ClaimAllFrom(q: seq<Station>, from: nat, ids: seq<int>)
    requires from + |ids| <= |q|
    requires forall j :: 0 <= j < from ==> q[j].isOccupied
    requires forall j :: from <= j < |q| ==> !q[j].isOccupied
    ensures forall k :: 0 <= k < |ids| ==> ClaimAll(q, ids).indices[k] == from + k
    ensures PlacedFrom(q, ClaimAll(q, ids).quay, from, ids)
    decreases |ids|
  {
    if |ids| > 0 {
      var c := Claim(q, ids[0]);
      assert !q[from].isOccupied;
      assert c.index == from;
      ClaimAllFrom(c.quay, from + 1, ids[1..]);
      var r := ClaimAll(q, ids);
      forall k | 0 <= k < |ids|
        ensures r.indices[k] == from + k
      {
        if k > 0 {
          assert r.indices[k] == ClaimAll(c.quay, ids[1..]).indices[k - 1];
        }
      }
    }
  }

  /** C vessels claiming stations on a vacant quay of C stations, one after
      another, get the distinct stations 0, 1, ..., C-1 in that order, and each
      station ends up holding the vessel that claimed it. */
  lemma SuccessiveClaims(q: seq<Station>, ids: seq<int>)
    requires Vacant(q) && |ids| == |q|
    ensures ClaimAll(q, ids).indices == seq(|q|, k => k)
    ensures forall k :: 0 <= k < |q| ==>
      ClaimAll(q, ids).quay[k] == q[k].(vesselId := ids[k], isOccupied := true)
  {
    ClaimAllFrom(q, 0, ids);
  }

  /** The vessel records its cargo weight at its own station; no other field
      and no other station changes. */
  function SetCargo(q: seq<Station>, k: int, weight: int): (r: seq<Station>)
    requires 0 <= k < |q|
    ensures |r| == |q| && r[k].cargoWeight == weight
    ensures r[k].(cargoWeight := q[k].cargoWeight) == q[k]
    ensures forall j :: 0 <= j < |q| && j != k ==> r[j] == q[j]
  {
    q[k := q[k].(cargoWeight := weight)]
  }

  /** The crane of station `k` unloads: the station's cargo is cleared and
      nothing else changes. */
  function ClearCargo(q: seq<Station>, k: int): (r: seq<Station>)
    requires 0 <= k < |q|
    ensures |r| == |q| && r[k].cargoWeight == NoCargo
    ensures r[k].(cargoWeight := q[k].cargoWeight) == q[k]
    ensures forall j :: 0 <= j < |q| && j != k ==> r[j] == q[j]
  {
    q[k := q[k].(cargoWeight := NoCargo)]
  }

  datatype CraneStep = Retire | Unloaded(vesselId: int, quay: seq<Station>)

  /** One wake-up of crane `craneId` on its semaphore. When the main thread has
      declared all vessels done the crane retires without touching the quay;
      otherwise it clears the cargo of its own station `craneId - 1` and
      releases the vessel stationed there. */
  function CraneWake(q: seq<Station>, craneId: int, allVesselsDone: bool): (r: CraneStep)
    requires 1 <= craneId <= |q|
    ensures allVesselsDone <==> r.Retire?
    ensures r.Unloaded? ==>
      && r.vesselId == q[craneId - 1].vesselId
      && |r.quay| == |q|
      && r.quay[craneId - 1].cargoWeight == NoCargo
      && (forall j :: 0 <= j < |q| ==> r.quay[j].craneId == q[j].craneId)
      && (forall j :: 0 <= j < |q| ==> r.quay[j].vesselId == q[j].vesselId)
      && (forall j :: 0 <= j < |q| ==> r.quay[j].isOccupied == q[j].isOccupied)
      && (forall j :: 0 <= j < |q| && j != craneId - 1 ==> r.quay[j] == q[j])
  {
    if allVesselsDone then Retire
    else Unloaded(q[craneId - 1].vesselId, ClearCargo(q, craneId - 1))
  }

  /** One batch of vessels going through the stations: each vessel in turn
      claims a station, records a cargo weight drawn from `rolls`, and wakes
      the station's crane (`cranesSemaphores[stationIndex]`, crane
      `stationIndex + 1`), which unloads it. `None` when some vessel finds no free station
      (the vessel thread gives up and the coordinator never sees its station
      vacated). Occupancy is only reset by the coordinator afterwards. */
  function ServeBatch(q: seq<Station>, batch: seq<int>, rolls: seq<nat>): (r: Option<seq<Station>>)
    requires |rolls| == |batch|
    ensures r.Some? ==> |r.value| == |q| && CraneIds(r.value) == CraneIds(q)
    decreases |batch|
  {
    if |batch| == 0 then Some(q)
    else
      var c := Claim(q, batch[0]);
      if c.index == -1 then None
      else
        var loaded := SetCargo(c.quay, c.index, Rng.RandomCargoWeight(rolls[0]));
        var wake := CraneWake(loaded, c.index + 1, false);
        ServeBatch(wake.quay, batch[1..], rolls[1..])
  }

  /** The next vessel of a batch on a quay whose first `from` stations hold
      the batch's first vessels: it claims station `from`, and once its crane
      has unloaded it that station holds it with no cargo left. */
  lemma PlaceNext(q0: seq<Station>, q: seq<Station>, from: nat, batch: seq<int>, weight: int)
    requires Pristine(q0) && from < |q0| && |batch| == |q0|
    requires PlacedFrom(q0, q, 0, batch[..from])
    ensures Claim(q, batch[from]).index == from
    ensures PlacedFrom(q0, CraneWake(SetCargo(Claim(q, batch[from]).quay, from, weight), from + 1, false).quay,
                       0, batch[..from + 1])
  {
    var c := Claim(q, batch[from]);
    assert c.index == from by {
      assert forall j :: 0 <= j < from ==> q[j].isOccupied;
      assert !q[from].isOccupied;
    }
    var next := ClearCargo(SetCargo(c.quay, from, weight), from);
    assert next == q[from := q0[from].(vesselId := batch[from], isOccupied := true)];
  }

  lemma {:induction false} ServeBatchFrom(q0: seq<Station>, q: seq<Station>, from: nat,
                                          batch: seq<int>, rolls: seq<nat>)
    requires Pristine(q0) && |batch| == |q0| && from <= |q0| && |rolls| == |q0| - from
    requires PlacedFrom(q0, q, 0, batch[..from])
    ensures ServeBatch(q, batch[from..], rolls).Some?
    ensures PlacedFrom(q0, ServeBatch(q, batch[from..], rolls).value, 0, batch)
    decreases |q0| - from
  {
    if from == |q0| {
      assert batch[..from] == batch;
    } else {
      var weight := Rng.RandomCargoWeight(rolls[0]);
      PlaceNext(q0, q, from, batch, weight);
      var next := CraneWake(SetCargo(Claim(q, batch[from]).quay, from, weight), from + 1, false).quay;
      assert batch[from..][1..] == batch[from + 1..];
      ServeBatchFrom(q0, next, from + 1, batch, rolls[1..]);
    }
  }

  /** A full batch on a pristine quay: every vessel finds a station, vessel
      `batch[k]` is the one at station `k`, and every cargo has been unloaded.
      So distinct vessels occupy distinct stations. */
  lemma ServeBatchOnPristine(q: seq<Station>, batch: seq<int>, rolls: seq<nat>)
    requires Pristine(q) && |batch| == |q| && |rolls| == |batch|
    ensures ServeBatch(q, batch, rolls).Some?
    ensures forall k :: 0 <= k < |q| ==>
      ServeBatch(q, batch, rolls).value[k] == q[k].(vesselId := batch[k], isOccupied := true)
  {
    assert batch[..0] == [];
    assert batch[0..] == batch;
    ServeBatchFrom(q, q, 0, batch, rolls);
  }

  /** After a batch has been unloaded and the coordinator has reset the quay,
      every station is again exactly as construction left it. */
  lemma CycleRestoresQuay(q: seq<Station>, batch: seq<int>, rolls: seq<nat>)
    requires Pristine(q) && |batch| == |q| && |rolls| == |batch|
    ensures ServeBatch(q, batch, rolls).Some?
    ensures RemoveVessels(ServeBatch(q, batch, rolls).value) == q
  {
    ServeBatchOnPristine(q, batch, rolls);
    var served := ServeBatch(q, batch, rolls).value;
    var r := RemoveVessels(served);
    forall k | 0 <= k < |q|
      ensures r[k] == q[k]
    {
      assert served[k] == q[k].(vesselId := batch[k], isOccupied := true);
      assert r[k] == served[k].(isOccupied := false, vesselId := NoVessel);
    }
  }
}

=== FILE: rng.dfy ===
/** The random ranges both ports derive from `rand()`. `rand()` itself is not
    modelled: each draw is an arbitrary non-negative number `r`. */
module Rng {

  /** MIN_SLEEP_TIME and MAX_SLEEP_TIME, in milliseconds. */
  const MinSleepTime: int := 5
  const MaxSleepTime: int := 3000

  /** MIN_WEIGHT and MAX_WEIGHT, in tons. */
  const MinWeight: int := 5
  const MaxWeight: int := 50

  function Abs(a: int): nat
  {
    if a < 0 then -a else a
  }

  /** C's `/` on `int`: the quotient truncated toward zero (section 6.5.5 of
      ISO C11). */
  function CQuot(a: int, b: int): int
    requires b != 0
  {
    var q := Abs(a) / Abs(b);
    if (a < 0) == (b < 0) then q else -q
  }

  /** C's `%` on `int`: `a == CQuot(a, b) * b + CRem(a, b)`; the remainder takes
      the sign of the dividend. */
  function CRem(a: int, b: int): int
    requires b != 0
  {
    a - b * CQuot(a, b)
  }

  /** For a non-negative dividend and a positive divisor, which is every use in
      the ports, C's remainder is the mathematical one. */
  lemma CRemOfNatural(a: int, b: int)
    requires 0 <= a && 0 < b
    ensures CRem(a, b) == a % b
    ensures 0 <= CRem(a, b) < b
  {
  }

  /** For a non-negative dividend and any non-zero divisor, C's remainder lies
      in [0, |b|); this covers the negative divisor of `getRandomDivisor` for a
      count below 2. */
  lemma CRemOfNaturalAnyDivisor(a: int, b: int)
    requires 0 <= a && b != 0
    ensures 0 <= CRem(a, b) < Abs(b)
  {
  }

  /** `randomSleepTime`: `rand() % (MAX - MIN + 1) + MIN`. */
  function RandomSleepTime(r: nat): (t: int)
    ensures MinSleepTime <= t <= MaxSleepTime
  {
    CRemOfNatural(r, MaxSleepTime - MinSleepTime + 1);
    CRem(r, MaxSleepTime - MinSleepTime + 1) + MinSleepTime
  }

  /** `randomCargoWeight`: `rand() % (MAX_WEIGHT - MIN_WEIGHT + 1) + MIN_WEIGHT`. */
  function RandomCargoWeight(r: nat): (w: int)
    ensures MinWeight <= w <= MaxWeight
  {
    CRemOfNatural(r, MaxWeight - MinWeight + 1);
    CRem(r, MaxWeight - MinWeight + 1) + MinWeight
  }

  /** Every sleep time in the range is produced by some draw (no value of the
      range is skipped). */
  lemma SleepTimeCoversRange(t: int)
    requires MinSleepTime <= t <= MaxSleepTime
    ensures exists r: nat :: RandomSleepTime(r) == t
  {
    var r: nat := t - MinSleepTime;
    CRemOfNatural(r, MaxSleepTime - MinSleepTime + 1);
    assert RandomSleepTime(r) == t;
  }

  /** Every cargo weight in the range is produced by some draw. */
  lemma CargoWeightCoversRange(w: int)
    requires MinWeight <= w <= MaxWeight
    ensures exists r: nat :: RandomCargoWeight(r) == w
  {
    var r: nat := w - MinWeight;
    CRemOfNatural(r, MaxWeight - MinWeight + 1);
    assert RandomCargoWeight(r) == w;
  }
}

=== FILE: wire.dfy ===
/** The text framing both pipes use. A value is written with
    `sprintf(buffer, "%d", v)` into the process's 60-byte `buffer`, the whole
    buffer is sent as one frame, and the reader recovers the value with
    `atoi(buffer)` (ISO C11 section 7.21.6.6 for sprintf, section 7.21.6.1 for
    the `%d` conversion, section 7.22.1.2 for atoi). */
module Wire {

  /** BUFFER_SIZE: every WriteFile/ReadFile on either pipe moves this many bytes. */
  const BufferSize: nat := 60

  const IntMin: int := -0x8000_0000
  const IntMax: int := 0x7fff_ffff

  /** The values a C `int` of the ports can hold. */
  predicate IsInt32(v: int)
  {
    IntMin <= v <= IntMax
  }

  /** The terminating null character sprintf writes after the text. */
  const Nul: char := '\0'

  type Frame = seq<char>

  predicate IsDigit(c: char)
  {
    '0' <= c <= '9'
  }

  predicate AllDigits(s: seq<char>)
  {
    forall i :: 0 <= i < |s| ==> IsDigit(s[i])
  }

  /** isspace in the "C" locale: space, \t, \n, \v, \f, \r. */
  predicate IsSpace(c: char)
  {
    c == ' ' || c == '\t' || c == '\n' || c == '\r' || c as int == 0x0B || c as int == 0x0C
  }

  function DigitChar(d: nat): char
    requires d < 10
  {
    (d + '0' as int) as char
  }

  function DigitValue(c: char): nat
    requires IsDigit(c)
  {
    c as int - '0' as int
  }

  function Pow10(k: nat): nat
  {
    if k == 0 then 1 else 10 * Pow10(k - 1)
  }

  /** The decimal digits of `n` as `%d` prints them: at least one digit and no
      leading zero. */
  function Digits(n: nat): (s: seq<char>)
    ensures 1 <= |s|
    ensures AllDigits(s)
    ensures s[0] == '0' ==> n == 0
    decreases n
  {
    if n < 10 then [DigitChar(n)] else Digits(n / 10) + [DigitChar(n % 10)]
  }

  /** The number a string of decimal digits denotes (most significant first). */
  function Value(s: seq<char>): nat
    requires AllDigits(s)
  {
    if |s| == 0 then 0 else 10 * Value(s[..|s| - 1]) + DigitValue(s[|s| - 1])
  }

  /** The characters `sprintf("%d", v)` produces, without the terminating null. */
  function FormatInt(v: int): seq<char>
  {
    if v < 0 then ['-'] + Digits(-v) else Digits(v)
  }

  /** `sprintf(buffer, "%d", v)`: the text and its null terminator overwrite the
      front of the buffer; the bytes after the terminator keep whatever an
      earlier message left there, and the whole buffer is what WriteFile sends. */
  function Sprintf(buffer: Frame, v: int): (frame: Frame)
    requires |buffer| == BufferSize && IsInt32(v)
    ensures |frame| == BufferSize
  {
    FormatFits(v);
    var text := FormatInt(v);
    text + [Nul] + buffer[|text| + 1..]
  }

  /** atoi's leading white-space skip. */
  function SkipSpace(s: seq<char>): seq<char>
  {
    if |s| > 0 && IsSpace(s[0]) then SkipSpace(s[1..]) else s
  }

  /** The longest prefix of `s` made of decimal digits. */
  function LeadingDigits(s: seq<char>): (d: seq<char>)
    ensures AllDigits(d)
  {
    if |s| == 0 || !IsDigit(s[0]) then [] else [s[0]] + LeadingDigits(s[1..])
  }

  /** `atoi(s)`: optional white space, an optional sign, then the longest run of
      digits; no digits gives 0. The string ends at the end of `s` or at the
      first character that is not a digit, the null terminator included. The
      overflow case, undefined behaviour in C, is not modelled: the value is
      unbounded. */
  function Atoi(s: seq<char>): int
  {
    var t := SkipSpace(s);
    if |t| > 0 && t[0] == '-' then -(Value(LeadingDigits(t[1..])) as int)
    else if |t| > 0 && t[0] == '+' then Value(LeadingDigits(t[1..]))
    else Value(LeadingDigits(t))
  }

  /** Reading a digit string back gives the number it was printed from. */
  lemma {:induction false} ValueOfDigits(n: nat)
    ensures Value(Digits(n)) == n
    decreases n
  {
    if n >= 10 {
      ValueOfDigits(n / 10);
      var s := Digits(n);
      assert s[..|s| - 1] == Digits(n / 10);
    }
  }

  /** A number below 10^k prints with at most k digits. */
  lemma {:induction false} DigitsLength(n: nat, k: nat)
    requires 1 <= k && n < Pow10(k)
    ensures |Digits(n)| <= k
    decreases n
  {
    if n >= 10 {
      assert k >= 2;
      assert n / 10 < Pow10(k - 1);
      DigitsLength(n / 10, k - 1);
    }
  }

  /** Every `int` prints in at most 11 characters ("-2147483648"), so the text
      and its terminator always fit a 60-byte frame. */
  lemma FormatFits(v: int)
    requires IsInt32(v)
    ensures |FormatInt(v)| <= 11 < BufferSize
  {
    assert Pow10(10) == 10_000_000_000;
    if v < 0 {
      DigitsLength(-v, 10);
    } else {
      DigitsLength(v, 10);
    }
  }

  lemma {:induction false} LeadingDigitsOf(d: seq<char>, rest: seq<char>)
    requires AllDigits(d)
    requires |rest| == 0 || !IsDigit(rest[0])
    ensures LeadingDigits(d + rest) == d
    decreases |d|
  {
    if |d| > 0 {
      assert (d + rest)[1..] == d[1..] + rest;
      LeadingDigitsOf(d[1..], rest);
    } else {
      assert d + rest == rest;
    }
  }

  /** A digit run followed by a non-digit reads back as its value. */
  lemma {:induction false} AtoiOfDigits(d: seq<char>, rest: seq<char>)
    requires 1 <= |d| && AllDigits(d)
    requires |rest| == 0 || !IsDigit(rest[0])
    ensures Atoi(d + rest) == Value(d)
  {
    var s := d + rest;
    assert s[0] == d[0];
    assert SkipSpace(s) == s;
    LeadingDigitsOf(d, rest);
  }

  /** A string that starts with a minus sign reads as its negated digit run. */
  lemma {:induction false} AtoiOfMinus(s: seq<char>)
    requires |s| > 0 && s[0] == '-'
    ensures Atoi(s) == -(Value(LeadingDigits(s[1..])) as int)
  {
    assert SkipSpace(s) == s;
  }

  /** A minus sign, a digit run and a non-digit read back as the negated value. */
  lemma {:induction false} AtoiOfNegative(d: seq<char>, rest: seq<char>)
    requires 1 <= |d| && AllDigits(d)
    requires |rest| == 0 || !IsDigit(rest[0])
    ensures Atoi(['-'] + d + rest) == -(Value(d) as int)
  {
    var s := ['-'] + d + rest;
    calc {
      Atoi(s);
      { AtoiOfMinus(s); }
      -(Value(LeadingDigits(s[1..])) as int);
      { assert s[1..] == d + rest; }
      -(Value(LeadingDigits(d + rest)) as int);
      { LeadingDigitsOf(d, rest); }
      -(Value(d) as int);
    }
  }

  /** atoi reads back what `%d` printed, whatever follows the text, as long as
      it does not start with a digit. */
  lemma AtoiOfFormatted(v: int, rest: seq<char>)
    requires |rest| == 0 || !IsDigit(rest[0])
    ensures Atoi(FormatInt(v) + rest) == v
  {
    if v < 0 {
      AtoiOfNegative(Digits(-v), rest);
      ValueOfDigits(-v);
    } else {
      AtoiOfDigits(Digits(v), rest);
      ValueOfDigits(v);
    }
  }

  /** Round trip of one frame: whatever stale bytes the buffer held, the frame
      is 60 bytes long and atoi decodes the value sprintf encoded. */
  lemma FrameRoundTrip(buffer: Frame, v: int)
    requires |buffer| == BufferSize && IsInt32(v)
    ensures |Sprintf(buffer, v)| == BufferSize
    ensures Atoi(Sprintf(buffer, v)) == v
  {
    FormatFits(v);
    var text := FormatInt(v);
    var rest := [Nul] + buffer[|text| + 1..];
    assert Sprintf(buffer, v) == text + rest;
    AtoiOfFormatted(v, rest);
  }

  /** A command-line argument printed with `%d` is read back by atoi. */
  lemma TextRoundTrip(v: int)
    ensures Atoi(FormatInt(v)) == v
  {
    AtoiOfFormatted(v, []);
    assert FormatInt(v) + [] == FormatInt(v);
  }

  /** The frames a sequence of messages becomes on a pipe; `stale[i]` is the
      content of the writer's buffer just before message i is printed into it. */
  function Frames(stale: seq<Frame>, values: seq<int>): (frames: seq<Frame>)
    requires |stale| == |values|
    requires forall i :: 0 <= i < |stale| ==> |stale[i]| == BufferSize
    requires forall i :: 0 <= i < |values| ==> IsInt32(values[i])
    ensures |frames| == |values|
    ensures forall i :: 0 <= i < |frames| ==> |frames[i]| == BufferSize
  {
    seq(|values|, i requires 0 <= i < |values| =>
      FrameRoundTrip(stale[i], values[i]); Sprintf(stale[i], values[i]))
  }

  /** The reader's side: one atoi per 60-byte frame. */
  function Receive(frames: seq<Frame>): seq<int>
  {
    seq(|frames|, i requires 0 <= i < |frames| => Atoi(frames[i]))
  }

  /** A whole message trace survives the pipe: the reader decodes exactly the
      values the writer sent, in order. */
  lemma TraceRoundTrip(stale: seq<Frame>, values: seq<int>)
    requires |stale| == |values|
    requires forall i :: 0 <= i < |stale| ==> |stale[i]| == BufferSize
    requires forall i :: 0 <= i < |values| ==> IsInt32(values[i])
    ensures Receive(Frames(stale, values)) == values
  {
    var frames := Frames(stale, values);
    forall i | 0 <= i < |values|
      ensures Receive(frames)[i] == values[i]
    {
      FrameRoundTrip(stale[i], values[i]);
    }
  }
}
